=== FILE: README.md ===
# hive core, modelled in Dafny

hive is a small actor runtime for Lua, written in C. Each actor is a **cell**: a
Lua state with a reference-counted mailbox. A cell receives messages on numbered
ports, and message payloads are Lua values serialised into chains of
fixed-size blocks. Worker threads take ready cells from a global ring, let each
one handle a single message, and put it back at the end of the ring. A timer
sends tick messages to the system cell. The socket library keeps a table of
socket slots indexed by id, plus growable circular byte buffers for incoming
data.

This project is a functional model of four parts of that core, with proofs
about each:

- `common.dfy` (`Common`): `Result`/`Option`, 32-bit wrap-around, and
  little-endian integers.
- `blocks.dfy` (`Blocks`): the block writer and reader of `hive_seri.c`.
- `codec.dfy` (`Codec`, `CodecRoundTrip`): the tagged serialisation format of
  `hive_seri.c`, with round trips for every kind of value.
- `mailbox.dfy` (`Mailbox`), `cell.dfy` (`Cells`): the mailbox ring and the
  cell lifecycle of `hive_cell.c`.
- `scheduler.dfy` (`Scheduler`): the global ready ring, one dispatch step, and
  the timer of `hive_scheduler.c`.
- `socket_buffer.dfy` (`SocketBuffer`): the socket read buffer of
  `hive_socket_lib.c` (`lpush`, `lpop`, `lreadline`).
- `socket_pool.dfy` (`SocketPool`): the socket slot table of
  `hive_socket_lib.c` (`new_socket`, `expand_pool`, `lclose`, `lsend`).

C pointers are modelled as values: a block chain is a `seq<seq<byte>>`, a
buffer is a datatype with its byte array, and a cell is referred to by its
address (a `nat`). The Lua stack is modelled as a sequence of `Value`s. A C
integer whose width matters is bounded by a subset type or by an invariant;
wrap-arounds are written out with `Wrap32`, except those listed under
"## Left out". C's truncating `%` is written out as `CRem`.

## Model

| member | source | states |
|---|---|---|
| Common.ReadI32OfI32 | hive-master/src/hive_seri.c:131-137 | the 4-byte little-endian header that `wb_close` writes reads back as the same signed 32-bit length |
| Blocks.Alloc | hive-master/src/hive_seri.c:67-70 | a new empty block is chained at the end without changing the stream or its length, and a full writer stays valid |
| Blocks.AppendLast | hive-master/src/hive_seri.c:72-90 | copying bytes into the last block appends exactly them to the stream and the length; when they fit, the writer stays valid with its offset advanced |
| Blocks.WbPush | hive-master/src/hive_seri.c:65-93 | appending to the block chain adds exactly the given bytes at the end of the stream and to the length, however they straddle block boundaries |
| Blocks.WbInit | hive-master/src/hive_seri.c:97-127 | a fresh writer holds a 4-byte length placeholder and has length 4 |
| Blocks.WbClose | hive-master/src/hive_seri.c:131-137 | closing overwrites the first 4 bytes with the total length, wrapped to 32 bits, and leaves the rest of the stream and the block shape alone |
| Blocks.WbReopen | hive-master/src/hive_seri.c:108-126 | reopening an existing chain keeps its blocks and takes the length from the header |
| Blocks.ReopenClosed | hive-master/src/hive_seri.c:97-137 | closing and then reopening a writer gives a valid writer with the same payload, so packing can continue where it stopped |
| Blocks.RbInit | hive-master/src/hive_seri.c:156-166 | the reader starts after the 4-byte header, with the header's length minus 4 bytes to read |
| Blocks.RbAdvance | hive-master/src/hive_seri.c:187-192 | stepping past an exhausted block loses no bytes of the stream and changes no length |
| Blocks.ReadLoop | hive-master/src/hive_seri.c:206-234 | the multi-block copy returns the first `sz` bytes of the stream and leaves the reader just after them |
| Blocks.RbTake | hive-master/src/hive_seri.c:195-234 | a read of `sz` available bytes returns the next `sz` bytes of the stream and consumes exactly them |
| Blocks.TakeWithin | hive-master/src/hive_seri.c:196-204 | a read that fits in what is left of the current block returns the next `sz` bytes and consumes exactly them |
| Blocks.TakeAcross | hive-master/src/hive_seri.c:206-234 | a read that runs past the current block gathers the next `sz` bytes across the following blocks and consumes exactly them |
| Blocks.RbRead | hive-master/src/hive_seri.c:172-235 | a read longer than what remains fails and consumes nothing; otherwise it returns the next `sz` readable bytes, and the rest stay readable |
| Codec.Tag | hive-master/src/hive_seri.c:25 | the low 3 bits of a tag byte are the type and the high 5 bits are the cookie |
| Codec.EncodeInt | hive-master/src/hive_seri.c:267-290 | an integer is tagged as a number, and its cookie is its payload width: 0 for zero, 1 or 2 for small non-negative values, 4 otherwise |
| Codec.EncodeString | hive-master/src/hive_seri.c:311-333 | a string ends with its own bytes; below 32 bytes its length is the cookie, otherwise a 2- or 4-byte length prefix follows, and the cookie names that width |
| Codec.EncodePointer | hive-master/src/hive_seri.c:303-307 | a pointer is a bare type byte followed by 8 bytes |
| Codec.EncodeArrayHeader | hive-master/src/hive_seri.c:342-368 | a table header is tagged as a table; a count below 31 is the cookie itself with nothing after the tag, and from 31 up the cookie is 31 and the count follows as an encoded integer |
| Codec.Skipped | hive-master/src/hive_seri.c:378-384 | a hash key is skipped when it is an integer in 1..n, already written by the array part |
| Codec.ArrayEncodes | hive-master/src/hive_seri.c:342-368 | the array part encodes exactly when each of its first `n` elements does, writes at least one byte per element, and fails as too deep past the depth limit |
| Codec.EncodeEntry | hive-master/src/hive_seri.c:386-387 | a hash pair encodes exactly when its key and its value do, into at least two bytes |
| Codec.HashEncodes | hive-master/src/hive_seri.c:372-394 | the hash part encodes exactly when every pair that is not skipped does, and is empty when every key is skipped |
| Codec.AllEncodes | hive-master/src/hive_seri.c:462-468 | a list of values encodes exactly when each value does at depth 0, with at least one byte per value |
| Codec.EncodeValue | hive-master/src/hive_seri.c:408-457 | nesting deeper than the limit fails as too deep, an unsupported Lua type fails, and every success is non-empty |
| Codec.PackFrom | hive-master/src/hive_seri.c:462-468 | packing a list of values succeeds exactly when each value encodes, and it appends their encodings in order |
| Codec.PackRest | hive-master/src/hive_seri.c:462-468 | once the first argument has encoded, pushing it and packing the rest appends the encodings of the whole list, and fails exactly when the list does not encode |
| Codec.DataPack | hive-master/src/hive_seri.c:472-482 | a packed message is a length header (wrapped to 32 bits) followed by the encodings of the values, in valid block shape |
| Codec.CloseMessage | hive-master/src/hive_seri.c:472-482 | closing a writer that holds a zero header and a payload gives that payload behind a header naming its length plus 4 |
| Codec.GetNumber | hive-master/src/hive_seri.c:500-537 | a number is read only for cookies 0, 1, 2, 4 and 8, consuming exactly `cookie` bytes and failing as truncated exactly when fewer remain; any other cookie is an error |
| Codec.GetPointer | hive-master/src/hive_seri.c:542-549 | a pointer read fails exactly when fewer than 8 bytes remain, and otherwise consumes 8 |
| Codec.GetBuffer | hive-master/src/hive_seri.c:553-557 | a string of length `len` is read exactly when `len` bytes remain, and it is those bytes |
| Codec.GetBufferAsWritten | hive-master/src/hive_seri.c:553-557 | models the unchecked code: when too few bytes remain, it pushes a NULL pointer with a length instead of failing |
| Codec.TruncatedStringAsWritten | hive-master/src/hive_seri.c:553-557 | a 5-byte short string with 2 bytes of data makes the unchecked read push NULL, while the corrected decoder reports truncation |
| Codec.PushScalar | hive-master/src/hive_seri.c:598-650 | decoding a scalar only consumes input; nil and booleans consume nothing; pointers and strings fail as truncated exactly when their bytes are missing; a long string fails exactly when its length exceeds what remains (or reaches 2^31), and a cookie other than 2 or 4 is an error |
| Codec.PushValue | hive-master/src/hive_seri.c:598-650 | decoding any tagged value only consumes input |
| Codec.ArrayCount | hive-master/src/hive_seri.c:563-594 | the array size is the cookie itself, unless the cookie is 31, in which case an integer follows |
| Codec.UnpackTable | hive-master/src/hive_seri.c:563-594 | a table decodes to a table value, and cookie 31 followed by something other than a number is an error |
| Codec.DecodeArray | hive-master/src/hive_seri.c:563-594 | the array part decodes to exactly `n` values (none when `n` is negative) |
| Codec.DecodeHash | hive-master/src/hive_seri.c:563-594 | the hash part always consumes at least its terminating nil |
| Codec.ValueExtends | hive-master/src/hive_seri.c:654-662 | a value that decodes from some bytes decodes the same way when more bytes follow, leaving them unread |
| Codec.DecodeValue | hive-master/src/hive_seri.c:654-662 | each value consumes at least one byte, and empty input is truncated |
| Codec.DecodeAll | hive-master/src/hive_seri.c:665-694 | an empty payload decodes to no values |
| Codec.DataUnpack | hive-master/src/hive_seri.c:665-694 | a message whose header says 4 or fewer bytes unpacks to no values |
| CodecRoundTrip.IntegerRoundTrip | hive-master/src/hive_seri.c:267-290 | every 32-bit integer decodes back to itself from its own encoding, whatever follows it |
| CodecRoundTrip.StringRoundTrip | hive-master/src/hive_seri.c:311-333 | every string decodes back to itself, in both the short and the long form |
| CodecRoundTrip.PointerRoundTrip | hive-master/src/hive_seri.c:303-307 | userdata and cell pointers decode back to the same pointer and type |
| CodecRoundTrip.ValueRoundTrip | hive-master/src/hive_seri.c:408-457 | every value that encodes decodes back to its normal form: hash pairs whose integer key 1..n is already covered by the array part are dropped, in nested tables too; scalars, reals included, come back unchanged |
| CodecRoundTrip.StrictPrefixFails | hive-master/src/hive_seri.c:598-662 | every strict prefix of a value's encoding fails to decode: no encoding ends early |
| CodecRoundTrip.HeaderRoundTrip | hive-master/src/hive_seri.c:342-368 | every non-negative array size is read back exactly from its header, whatever bytes follow |
| CodecRoundTrip.TableRoundTrip | hive-master/src/hive_seri.c:397-404 | a table decodes back to its array part and its normalised hash part |
| CodecRoundTrip.ArrayRoundTrip | hive-master/src/hive_seri.c:342-368 | the array part decodes back to its normalised elements, in order |
| CodecRoundTrip.EntryRoundTrip | hive-master/src/hive_seri.c:372-394 | a hash entry decodes back to its key, then its value |
| CodecRoundTrip.HashRoundTrip | hive-master/src/hive_seri.c:372-394 | the hash part decodes back to its entries, leaving out the integer keys that the array part already covers |
| CodecRoundTrip.AllRoundTrip | hive-master/src/hive_seri.c:462-468 | a list of values decodes back to the normalised list |
| CodecRoundTrip.MessageRoundTrip | hive-master/src/hive_seri.c:472-482 | unpacking a packed message gives back the normalised values, as long as its length fits in 31 bits |
| CodecRoundTrip.NestDepth | hive-master/src/hive_seri.c:408-457 | wrapping a value in `k` tables succeeds exactly when the value itself encodes `k` levels deeper |
| CodecRoundTrip.DepthLimit | hive-master/src/hive_seri.c:408-457 | tables nested to the depth limit encode, and one level more fails as too deep |
| Mailbox.MqInit | hive-master/src/hive_cell.c:170-175 | a new mailbox is empty with the default capacity of 64 |
| Mailbox.Grow | hive-master/src/hive_cell.c:188-199 | reallocation doubles the capacity and copies the ring in order, from head, to the start of the new array |
| Mailbox.Store | hive-master/src/hive_cell.c:180-185 | storing at the tail keeps the ring valid, with the same capacity and head |
| Mailbox.StoreContents | hive-master/src/hive_cell.c:180-185 | while there is room, storing appends the message to the contents |
| Mailbox.MqPush | hive-master/src/hive_cell.c:179-200 | a push appends the message, doubling the capacity exactly when the ring fills |
| Mailbox.MqPop | hive-master/src/hive_cell.c:206-219 | an empty mailbox is left unchanged and reports empty; otherwise the oldest message is removed and returned |
| Mailbox.PopAll | hive-master/src/hive_cell.c:206-219 | popping until empty hands out the contents oldest first and leaves the mailbox empty |
| Mailbox.Fifo | hive-master/src/hive_cell.c:179-219 | any series of pushes followed by a drain yields the old contents and then the pushed messages, in order |
| Cells.CellCreate | hive-master/src/hive_cell.c:224-236 | a new cell has no references, no host, an empty mailbox and neither flag set |
| Cells.CellGrab | hive-master/src/hive_cell.c:53-55 | grabbing adds one reference and changes nothing else |
| Cells.CellRelease | hive-master/src/hive_cell.c:59-64 | releasing drops one reference, and the cell is marked quit exactly when that was the last one |
| Cells.GrabRelease | hive-master/src/hive_cell.c:53-64 | a grab followed by a release restores the count, and marks an unreferenced cell quit |
| Cells.CellSend | hive-master/src/hive_cell.c:479-489 | a quit or closed cell refuses with 1 and is unchanged; otherwise the message joins the end of its mailbox and 0 is returned |
| Cells.CellClose | hive-master/src/hive_cell.c:390-394 | closing sets only the close flag |
| Cells.CloseIdempotent | hive-master/src/hive_cell.c:390-394 | closing twice is the same as closing once, and a closed cell refuses every message |
| Cells.TrashMsg | hive-master/src/hive_cell.c:412-428 | a closing cell's behaviour receives every queued message in order, then the exit message on port 5, and the mailbox ends empty |
| Cells.CellDispatch | hive-master/src/hive_cell.c:433-475 | a quit cell is destroyed; a closing cell with a host is drained, loses its host and the reference of its `self` proxy, and is marked quit when that was its last reference; otherwise at most the oldest message is delivered, and only when there is a host |
| Cells.CanDestroy | hive-master/src/hive_cell.c:240-245 | a cell may be destroyed only with no references and no Lua state attached |
| Scheduler.GP | hive-master/src/hive_scheduler.c:19 | every counter maps to a slot of the 65536-slot ring |
| Scheduler.GlobalInit | hive-master/src/hive_scheduler.c:83-86 | the ready ring starts empty, with no live cells |
| Scheduler.GlobalPush | hive-master/src/hive_scheduler.c:48-56 | a push stores the cell in the tail slot, publishes it, and advances the tail modulo 2^32 |
| Scheduler.PushKeepsValid | hive-master/src/hive_scheduler.c:48-56 | while the ring is not full, a push keeps flags and contents consistent and appends the cell to the queue |
| Scheduler.GlobalPop | hive-master/src/hive_scheduler.c:60-79 | an empty ring, or an unpublished head slot, yields nothing and changes nothing; otherwise the oldest cell is removed |
| Scheduler.PopKeepsValid | hive-master/src/hive_scheduler.c:60-79 | popping a published head removes exactly the oldest cell and keeps the ring consistent |
| Scheduler.GlobalInc | hive-master/src/hive_scheduler.c:90-92 | the live-cell count goes up by one and the queue is untouched |
| Scheduler.GlobalDec | hive-master/src/hive_scheduler.c:97-99 | the live-cell count goes down by one and the queue is untouched |
| Scheduler.IncDec | hive-master/src/hive_scheduler.c:90-99 | increment and decrement undo each other |
| Scheduler.Retire | hive-master/src/hive_scheduler.c:118-120 | removing a destroyed cell from the world keeps every queued cell known and queued once |
| Scheduler.Requeue | hive-master/src/hive_scheduler.c:123-124 | putting a visited cell back at the end keeps every queued cell known and queued once |
| Scheduler.Visit | hive-master/src/hive_scheduler.c:104-125 | the scheduler's view of a visit: only a quit cell is destroyed, a surviving cell stays consistent, and outcome, new state and delivered messages are those of `cell_dispatch_message` |
| Scheduler.MessageDispatch | hive-master/src/hive_scheduler.c:104-125 | one step returns 1 on an empty ring; it retires a quit cell and decrements the count; for any other cell, its new state and the messages handed to it are exactly those of one `cell_dispatch_message` visit (one message at most, or the whole mailbox and the exit message for a closing cell), and it goes to the back of the ring; the world stays valid |
| Scheduler.GetTime | hive-master/src/hive_scheduler.c:130-140 | the clock is in hundredths of a second over the low 24 bits of the seconds, so it stays below 2^31 |
| Scheduler.UpdateTime | hive-master/src/hive_scheduler.c:158-173 | when the clock advances, the system cell receives one tick per hundredth elapsed (none if the `int` difference is negative) and the new time is recorded; a quit or closed cell receives nothing |
| Scheduler.TimerTicksInFull | hive-master/src/hive_scheduler.c:158-173 | two clock readings are never 2^31 apart, so the `int` difference never wraps and every advance is ticked in full |
| SocketBuffer.NewBuffer | hive-master/src/hive_socket_lib.c:753-761 | a new buffer has the requested size and holds nothing |
| SocketBuffer.AppendBuffer | hive-master/src/hive_socket_lib.c:790-805 | appending to a buffer with room adds the bytes after its contents, wrapping around the end of the array |
| SocketBuffer.AppendInPlace | hive-master/src/hive_socket_lib.c:794-796 | data that fits before the end of the array lands straight after the contents |
| SocketBuffer.AppendWrapping | hive-master/src/hive_socket_lib.c:797-804 | data that reaches the end of the array is split, and its second part continues at the start, still after the contents |
| SocketBuffer.CopyBuffer | hive-master/src/hive_socket_lib.c:765-786 | copying into a larger buffer moves the contents, in order, to the start of the array |
| SocketBuffer.LPush | hive-master/src/hive_socket_lib.c:810-853 | a push appends the data and reports the new byte count; the buffer grows to twice the needed size when the data would fill it, and is created at twice the message size |
| SocketBuffer.Slice | hive-master/src/hive_socket_lib.c:883-893 | the bytes copied out, in one piece or two around the end of the array, are the first `n` bytes of the contents |
| SocketBuffer.Advance | hive-master/src/hive_socket_lib.c:883-893 | moving the head past `n` bytes keeps the buffer valid and, unless that empties it, leaves the contents after them |
| SocketBuffer.Take | hive-master/src/hive_socket_lib.c:883-893 | taking `n` bytes returns the first `n` bytes of the contents and leaves the rest |
| SocketBuffer.LPop | hive-master/src/hive_socket_lib.c:857-903 | popping more than is held returns nothing and changes nothing; otherwise the oldest `sz` bytes (everything when `sz` is 0) are removed, and an emptied buffer is reset to the start |
| SocketBuffer.PushThenPopAll | hive-master/src/hive_socket_lib.c:810-903 | pushing data and popping everything returns the old contents followed by the data |
| SocketBuffer.CheckSep | hive-master/src/hive_socket_lib.c:906-920 | the separator test succeeds exactly when every separator byte matches the array, reading around its end |
| SocketBuffer.CheckedIsMatch | hive-master/src/hive_socket_lib.c:943-949 | a match found by the scan in the raw array is a match in the buffer's contents |
| SocketBuffer.FindSep | hive-master/src/hive_socket_lib.c:943-981 | the scan reports no separator exactly when the contents hold none, and otherwise finds the first one |
| SocketBuffer.LineBefore | hive-master/src/hive_socket_lib.c:954-971 | the bytes before the separator are the first bytes of the contents |
| SocketBuffer.Consumed | hive-master/src/hive_socket_lib.c:972-976 | moving the head past the line and the separator leaves what followed them |
| SocketBuffer.Cut | hive-master/src/hive_socket_lib.c:954-976 | cutting a line returns it and leaves the contents after the separator |
| SocketBuffer.LReadline | hive-master/src/hive_socket_lib.c:924-982 | without a separator nothing happens; a peek only reports it; otherwise the line before the first separator is returned and the line and separator are removed |
| SocketPool.InLive | hive-master/src/hive_socket_lib.c:311-315 | an id is live exactly when its slot, id modulo the capacity, is in use and holds that id |
| SocketPool.PoolInit | hive-master/src/hive_socket_lib.c:71-90 | a new table has 128 free slots, no live sockets, and hands out ids from 1 |
| SocketPool.Place | hive-master/src/hive_socket_lib.c:138-143 | when the table is full, rehashing every socket by id modulo twice the capacity lands each one in a distinct, empty slot |
| SocketPool.Fill | hive-master/src/hive_socket_lib.c:144-149 | every slot the rehash left empty is a fresh, unused socket, and a slot is in use exactly when a live socket was placed there |
| SocketPool.FillCount | hive-master/src/hive_socket_lib.c:133-153 | the rehashed table holds exactly as many live sockets as before |
| SocketPool.ExpandPool | hive-master/src/hive_socket_lib.c:133-153 | expansion doubles the capacity, keeps exactly the same live sockets under the same ids, and leaves every other slot zeroed |
| SocketPool.Candidate | hive-master/src/hive_socket_lib.c:164-167 | every candidate id lies in 1..0x7fffffff and is the next id plus the step while that stays in range |
| SocketPool.NextId | hive-master/src/hive_socket_lib.c:191-195 | the id counter stays in 1..0x7fffffff and returns to 1 after the maximum |
| SocketPool.CandidateAsWritten | hive-master/src/hive_socket_lib.c:164-166 | the code's candidate is the next id plus the step while in range, and becomes negative once the sum passes 0x7fffffff |
| SocketPool.NextIdAsWritten | hive-master/src/hive_socket_lib.c:191-195 | the code's counter after `id` is `id + 1`, except at 0x7fffffff where it becomes -2^31, so the reset to 1 never happens |
| SocketPool.IdOverflowAsWritten | hive-master/src/hive_socket_lib.c:164-195 | after the id 0x7fffffff the code's counter becomes -2^31 and the next scan indexes slot -127; the corrected counter returns to 1 and indexes a real slot |
| SocketPool.MakeRoom | hive-master/src/hive_socket_lib.c:160-162 | a full table is doubled and any other is kept; either way the live sockets, the count and the id counter are unchanged, there is room, and a free slot is the old one or a zeroed one |
| SocketPool.ScanFree | hive-master/src/hive_socket_lib.c:164-204 | the scan takes the first candidate id whose slot is free, unless the poll registration fails; a failed scan saw only slots in use and changes nothing; every slot it does not take is left alone |
| SocketPool.NewSocket | hive-master/src/hive_socket_lib.c:157-205 | a new socket gets the first candidate id from the id counter whose slot is free, is added suspended with nothing pending, and nothing else changes (a free slot keeps its old contents, or is zeroed after a doubling); a failed scan saw only slots in use; it fails only when the poll registration fails, and a full table first doubles |
| SocketPool.NewSocketTakesCounter | hive-master/src/hive_socket_lib.c:164-199 | when the table has room and the id counter's own slot is free, the new socket gets the counter itself |
| SocketPool.Claim | hive-master/src/hive_socket_lib.c:169-199 | taking a free slot writes the suspended socket into it and leaves every other slot alone; it adds exactly one socket, suspended with nothing pending, under an id that was not live, counts it, and moves the id counter past it (back to 1 after the maximum) |
| SocketPool.ScanFull | hive-master/src/hive_socket_lib.c:164-201 | if every slot the scan visits is in use and the scan does not wrap the id range, the table is full |
| SocketPool.ForceClose | hive-master/src/hive_socket_lib.c:274-298 | closing a slot removes exactly that socket and returns its descriptor to close |
| SocketPool.LClose | hive-master/src/hive_socket_lib.c:303-328 | an id whose slot holds another id is an error; a free id is a no-op; a socket with nothing pending is removed; otherwise it is half-closed and keeps its data |
| SocketPool.Update | hive-master/src/hive_socket_lib.c:325 | changing the state of a live socket in its own slot changes that socket only, and keeps the count and the id counter |
| SocketPool.Enqueue | hive-master/src/hive_socket_lib.c:689-738 | the pending queue grows by exactly the bytes not yet written: the whole message after earlier data, otherwise the unsent tail |
| SocketPool.LSend | hive-master/src/hive_socket_lib.c:657-739 | a send to a mismatched id is an error; a send to a socket that is not suspended is dropped; otherwise the unsent bytes are queued and nothing else changes |
| SocketPool.CloseUndoesOpen | hive-master/src/hive_socket_lib.c:303-328 | closing a socket just placed in a free slot, before anything is queued on it, gives back exactly the live sockets from before |
| SocketPool.SendAfterClose | hive-master/src/hive_socket_lib.c:657-702 | after closing an idle socket, a send to it succeeds and changes nothing |

## Left out

- Locks, atomics and worker threads: every operation is one critical section,
  and the global ring is modelled under its sequential invariant.
- The Lua C API: Lua values are a datatype, and running a behaviour is
  represented by the list of messages handed to it.
- Sockets, `poll`, `read` and `write`: the number of bytes a direct write takes
  is the parameter `sent` of `LSend`, and failure of the poll registration in
  `new_socket` is the parameter `addFails`.
- `setsockopt`, `sp_nonblocking` and the `EINTR` retry loop of `lsend` have no
  effect on the slot table and are not modelled.
- The clock is a parameter (`GetTime` takes seconds and microseconds).
- Floating point: a real's encoding is its 8 raw bytes, and the decision
  whether a Lua number is integral is a field of the value.
- `cell_touserdata`, `cell_new` and the rest of the Lua glue are left out,
  along with the socket library's Lua bindings other than `lpush`, `lpop`,
  `lreadline`, `lclose` and `lsend`.
- `SocketBuffer.LPop` and `SocketBuffer.LPush`: negative sizes come from Lua
  integers cast to `int` and have undefined results in C, so sizes are natural
  numbers here. The `int` overflow of `2 * (sz + bytes)` is not modelled.
- `SocketPool.LClose` and `SocketPool.LSend`: a negative id makes C index before
  the table, so ids are required to be non-negative. Ids of 2^31 or more,
  which C truncates to `int` when it reads the argument, are not modelled.
- `SocketPool.LSend`: the message length is `|msg|`, and the separate `sz`
  argument is not modelled.
- `SocketPool.NewSocket`: the completeness promise (a free slot is always found)
  is stated only when the scan does not pass the largest id. A scan that wraps
  from 0x7fffffff to 1 skips one residue, so a table with a single free slot
  can report failure.
- `Blocks.RbRead`: memory that lies past the last block is not modelled. The
  header length is required to lie within the chain, as `data_unpack`'s callers
  guarantee.
- `Codec.EncodeString`: strings of 2^31 bytes or more are excluded by the type
  `LuaString`. C passes their length to `wb_string` as a negative `int`, which
  writes a short-string tag with a meaningless cookie and no bytes. Likewise
  `Valid` requires a table's array part to be shorter than 2^31, where C casts
  `lua_rawlen` to a negative `int array_size`.
- `Codec.DecodeValue`: the decoder has no depth limit in the code (only the
  encoder has one), and the model follows the code.
- The numeric values of `CELL_QUIT`, `CELL_EMPTY` and `CELL_MESSAGE` (from
  hive_cell.h) are not modelled; `Outcome` is a datatype.
- `Codec.ArrayCount`: a count stored as a real (cookie 31 followed by an 8-byte
  number) is reported as an error; C truncates it with `(int)` and reads that
  many elements, and floating point is not modelled.
- `Codec.GetBuffer`: a long-string length of 2^31 or more is reported as
  truncation; C casts it to a negative `int` and passes it to `rb_read`, a
  stack array and `lua_pushlstring`, none of which the model follows.
- `Codec.EncodeValue`: packing a cell grabs a reference (`cell_grab`) and
  unpacking hands it to the receiver's proxy and releases it (`cell_release`);
  a `CellRef` is a bare pointer here and the reference transfer is not modelled.
- `Cells.CellDispatch`: closing the Lua state also runs the `__gc` of proxies the
  state holds for other cells; those releases act on other cells and are not
  modelled.

## Findings

| source | as written | input that shows it | evidently intended | confidence | as-written member | corrected member |
|---|---|---|---|---|---|---|
| hive-master/src/hive_seri.c:553-557 | `_get_buffer` pushes the result of `rb_read` as a string without checking it for NULL, so truncated input pushes a NULL pointer with a length | the bytes `[0x2c, 1, 2]`: a short string of length 5 with only 2 data bytes | fail with an invalid-stream error, as the other readers do | not executed | Codec.TruncatedStringAsWritten | Codec.GetBuffer |
| hive-master/src/hive_socket_lib.c:164-195 | `id + 1` is computed in `int`, so at 0x7fffffff it overflows before the `> MAX_ID` test, and the next scan computes a negative slot with C's `%` | a table whose id counter has reached 0x7fffffff and gets one more socket | wrap the counter back to 1 and keep slots in range | not executed | SocketPool.IdOverflowAsWritten | SocketPool.NewSocket |

=== FILE: blocks.dfy ===
/**
 * The linked list of 128-byte blocks that carries a packed message
 * (`struct block`, `struct write_block`, `struct read_block`).
 *
 * A list of blocks is a `seq<seq<byte>>` holding the bytes written into each
 * block; every block but the last is full. The writer appends at the end of
 * the last block, the reader consumes from a position inside the first.
 */
module Blocks {
  import opened Common

  const BLOCK_SIZE: int := 128

  /** The bytes of a block list, in order. */
  function Flatten(bs: seq<seq<byte>>): seq<byte>
  {
    if |bs| == 0 then [] else bs[0] + Flatten(bs[1..])
  }

  lemma {:induction false} FlattenSnoc(bs: seq<seq<byte>>, x: seq<byte>)
    ensures Flatten(bs + [x]) == Flatten(bs) + x
  {
    if |bs| > 0 {
      assert (bs + [x])[1..] == bs[1..] + [x];
      FlattenSnoc(bs[1..], x);
    }
  }

  lemma FlattenLast(bs: seq<seq<byte>>)
    requires |bs| > 0
    ensures Flatten(bs) == Flatten(bs[..|bs| - 1]) + bs[|bs| - 1]
  {
    var init, last := bs[..|bs| - 1], bs[|bs| - 1];
    FlattenSnoc(init, last);
    assert init + [last] == bs;
  }

  /** Every block holds at most BLOCK_SIZE bytes and all but the last are full. */
  ghost predicate Shaped(bs: seq<seq<byte>>)
  {
    forall i :: 0 <= i < |bs| ==>
      |bs[i]| <= BLOCK_SIZE && (i < |bs| - 1 ==> |bs[i]| == BLOCK_SIZE)
  }

  lemma {:induction false} ShapedLength(bs: seq<seq<byte>>)
    requires Shaped(bs) && |bs| > 0
    ensures |Flatten(bs)| == BLOCK_SIZE * (|bs| - 1) + |bs[|bs| - 1]|
  {
    if |bs| > 1 {
      ShapedLength(bs[1..]);
    }
  }

  // ---------------------------------------------------------------------------
  // Writer

  /**
   * `struct write_block`: `ptr` is the fill of the last (current) block and
   * `len` the number of bytes written so far.
   */
  datatype WriteBlock = WriteBlock(blocks: seq<seq<byte>>, len: int, ptr: int)

  ghost predicate WbValid(w: WriteBlock)
  {
    && |w.blocks| >= 1
    && Shaped(w.blocks)
    && w.ptr == |w.blocks[|w.blocks| - 1]|
    && w.len == |Flatten(w.blocks)|
  }

  /**
   * `blk_alloc` linked after the current block, which becomes the new
   * current: the stream is unchanged, and linking after a full block keeps
   * the writer valid.
   */
  function Alloc(w: WriteBlock): (r: WriteBlock)
    ensures Flatten(r.blocks) == Flatten(w.blocks) && r.len == w.len
    ensures |r.blocks| == |w.blocks| + 1 && r.ptr == 0
    ensures WbValid(w) && w.ptr == BLOCK_SIZE ==> WbValid(r)
  {
    FlattenSnoc(w.blocks, []);
    WriteBlock(w.blocks + [[]], w.len, 0)
  }

  /**
   * `memcpy` into the current block at `ptr`: the bytes join the end of the
   * stream, and a copy that fits the current block keeps the writer valid.
   */
  function AppendLast(w: WriteBlock, buf: seq<byte>): (r: WriteBlock)
    requires |w.blocks| >= 1
    ensures Flatten(r.blocks) == Flatten(w.blocks) + buf
    ensures r.len == w.len + |buf| && |r.blocks| == |w.blocks|
    ensures WbValid(w) && w.ptr + |buf| <= BLOCK_SIZE ==> WbValid(r) && r.ptr == w.ptr + |buf|
  {
    var n := |w.blocks|;
    var r := WriteBlock(w.blocks[..n - 1] + [w.blocks[n - 1] + buf], w.len + |buf|, w.ptr + |buf|);
    FlattenSnoc(w.blocks[..n - 1], w.blocks[n - 1] + buf);
    FlattenLast(w.blocks);
    r
  }

  /**
   * `wb_push`: appends `buf`, filling the current block and linking fresh
   * blocks as each one fills. A block is allocated on entry when the current
   * one is already full, even for an empty `buf`.
   */
  function WbPush(w: WriteBlock, buf: seq<byte>): (r: WriteBlock)
    requires WbValid(w)
    ensures WbValid(r)
    ensures Flatten(r.blocks) == Flatten(w.blocks) + buf
    ensures r.len == w.len + |buf|
    decreases |buf|, if w.ptr == BLOCK_SIZE then 1 else 0
  {
    if w.ptr == BLOCK_SIZE then
      WbPush(Alloc(w), buf)
    else if w.ptr <= BLOCK_SIZE - |buf| then
      AppendLast(w, buf)
    else
      var copy := BLOCK_SIZE - w.ptr;
      var w1 := AppendLast(w, buf[..copy]);
      assert buf[..copy] + buf[copy..] == buf;
      WbPush(Alloc(w1), buf[copy..])
  }

  /** `wb_init(wb, NULL)`: one fresh block holding a zero length placeholder. */
  function WbInit(): (w: WriteBlock)
    ensures WbValid(w)
    ensures Flatten(w.blocks) == I32LE(0) && w.len == 4
  {
    WbPush(WriteBlock([[]], 0, 0), I32LE(0))
  }

  lemma FlattenSetFirst(bs: seq<seq<byte>>, x: seq<byte>)
    requires |bs| > 0
    ensures Flatten(bs[0 := x]) == x + Flatten(bs[1..])
  {
    assert bs[0 := x][1..] == bs[1..];
  }

  /**
   * `wb_close`: rewrites the first four bytes of the head block with the total
   * length (header included) and hands the block list over.
   */
  function WbClose(w: WriteBlock): (r: seq<seq<byte>>)
    requires WbValid(w) && w.len >= 4
    ensures Shaped(r) && |r| == |w.blocks| && |r[0]| >= 4
    ensures Flatten(r) == I32LE(Wrap32(w.len)) + Flatten(w.blocks)[4..]
  {
    ShapedLength(w.blocks);
    var b0 := w.blocks[0];
    assert |b0| >= 4;
    var r := w.blocks[0 := I32LE(Wrap32(w.len)) + b0[4..]];
    FlattenSetFirst(w.blocks, I32LE(Wrap32(w.len)) + b0[4..]);
    assert Flatten(w.blocks) == b0 + Flatten(w.blocks[1..]);
    assert Flatten(w.blocks)[4..] == b0[4..] + Flatten(w.blocks[1..]);
    r
  }

  /**
   * `wb_init(wb, b)` with a non-NULL `b`: reopens a closed list for appending,
   * taking the length from the header and deriving the fill of the last
   * block by subtracting BLOCK_SIZE for every block after the first.
   */
  function WbReopen(bs: seq<seq<byte>>): (w: WriteBlock)
    requires |bs| >= 1 && |bs[0]| >= 4
    ensures w.blocks == bs && w.len == ReadI32(bs[0][..4])
  {
    var len := ReadI32(bs[0][..4]);
    WriteBlock(bs, len, len - BLOCK_SIZE * (|bs| - 1))
  }

  /** Reopening what `wb_close` produced gives back a consistent writer. */
  lemma ReopenClosed(w: WriteBlock)
    requires WbValid(w) && 4 <= w.len < TWO_31
    ensures WbValid(WbReopen(WbClose(w)))
    ensures Flatten(WbReopen(WbClose(w)).blocks)[4..] == Flatten(w.blocks)[4..]
  {
    var r := WbClose(w);
    ReadI32OfI32(w.len);
    assert r[0][..4] == I32LE(w.len);
    ShapedLength(w.blocks);
    ShapedLength(r);
    assert |Flatten(r)| == |Flatten(w.blocks)|;
  }

  // ---------------------------------------------------------------------------
  // Reader

  /**
   * `struct read_block` with a NULL `buffer` (the only form `data_unpack`
   * builds): `current` is the unread tail of the list, `ptr` the read
   * position inside its first block, `len` the bytes still readable.
   */
  datatype ReadBlock = ReadBlock(current: seq<seq<byte>>, len: int, ptr: int)

  ghost predicate RbValid(rb: ReadBlock)
  {
    && Shaped(rb.current)
    && 0 <= rb.ptr
    && (|rb.current| == 0 ==> rb.ptr == 0)
    && (|rb.current| > 0 ==> rb.ptr <= |rb.current[0]|)
    && rb.len <= |Flatten(rb.current)| - rb.ptr
  }

  /** All bytes after the read position. */
  function Stream(rb: ReadBlock): seq<byte>
    requires RbValid(rb)
  {
    Flatten(rb.current)[rb.ptr..]
  }

  /** The bytes the reader will still hand out. */
  function Avail(rb: ReadBlock): (r: seq<byte>)
    requires RbValid(rb)
    ensures |r| == if rb.len <= 0 then 0 else rb.len
  {
    if rb.len <= 0 then [] else Stream(rb)[..rb.len]
  }

  /**
   * `rb_init`: the header holds the total length including itself, so the
   * readable length is the header minus four.
   */
  function RbInit(bs: seq<seq<byte>>): (rb: ReadBlock)
    requires Shaped(bs) && |bs| >= 1 && |bs[0]| >= 4
    requires ReadI32(bs[0][..4]) <= |Flatten(bs)|
    ensures RbValid(rb)
    ensures rb.len == ReadI32(bs[0][..4]) - 4
    ensures Stream(rb) == Flatten(bs)[4..]
  {
    ReadBlock(bs, ReadI32(bs[0][..4]) - 4, 4)
  }

  /** `len` bytes starting at `ptr` of the first block (none when the list is empty). */
  function FirstBlockBytes(cur: seq<seq<byte>>, ptr: int, sz: int): seq<byte>
    requires 0 <= ptr && 0 <= sz
    requires |cur| == 0 ==> sz == 0
    requires |cur| > 0 ==> ptr + sz <= |cur[0]|
  {
    if |cur| == 0 then [] else cur[0][ptr..ptr + sz]
  }

  lemma StreamSplit(cur: seq<seq<byte>>, ptr: int)
    requires |cur| > 0 && 0 <= ptr <= |cur[0]|
    ensures Flatten(cur)[ptr..] == cur[0][ptr..] + Flatten(cur[1..])
  {
  }

  /**
   * The `for (;;)` loop of `rb_read`: the previous block has been freed and
   * `cur` starts at its successor; `sz` bytes remain to be copied.
   */
  function ReadLoop(cur: seq<seq<byte>>, sz: nat, len: int): (r: (seq<byte>, ReadBlock))
    requires Shaped(cur) && sz <= len <= |Flatten(cur)|
    ensures RbValid(r.1)
    ensures r.0 == Flatten(cur)[..sz]
    ensures r.1.len == len - sz
    ensures Stream(r.1) == Flatten(cur)[sz..]
    decreases sz
  {
    if sz < BLOCK_SIZE then
      var rb := ReadBlock(cur, len - sz, sz);
      assert RbValid(rb) && Stream(rb) == Flatten(cur)[sz..]
        && FirstBlockBytes(cur, 0, sz) == Flatten(cur)[..sz] by {
        if |cur| > 0 {
          ShapedLength(cur);
          StreamSplit(cur, 0);
          StreamSplit(cur, sz);
        }
      }
      (FirstBlockBytes(cur, 0, sz), rb)
    else
      ShapedLength(cur);
      assert |cur[0]| == BLOCK_SIZE;
      StreamSplit(cur, 0);
      var (rest, rb) := ReadLoop(cur[1..], sz - BLOCK_SIZE, len - BLOCK_SIZE);
      (cur[0] + rest, rb)
  }

  /** Step past a fully read first block, as `rb_read` does before copying. */
  function RbAdvance(rb: ReadBlock): (r: ReadBlock)
    requires RbValid(rb)
    ensures RbValid(r) && Stream(r) == Stream(rb) && r.len == rb.len
    ensures r.ptr < BLOCK_SIZE || |r.current| == 0 || |r.current[0]| == r.ptr
  {
    if rb.ptr == BLOCK_SIZE then
      StreamSplit(rb.current, rb.ptr);
      ReadBlock(rb.current[1..], rb.len, 0)
    else rb
  }

  /** The single-block copy of `rb_read`: the bytes lie within the current block. */
  function TakeWithin(rb: ReadBlock, sz: nat): (r: (seq<byte>, ReadBlock))
    requires RbValid(rb) && sz <= rb.len && rb.ptr + sz <= BLOCK_SIZE
    ensures RbValid(r.1)
    ensures r.0 == Stream(rb)[..sz]
    ensures Stream(r.1) == Stream(rb)[sz..] && r.1.len == rb.len - sz
  {
    var rb2 := ReadBlock(rb.current, rb.len - sz, rb.ptr + sz);
    assert RbValid(rb2) && Stream(rb2) == Stream(rb)[sz..]
      && FirstBlockBytes(rb.current, rb.ptr, sz) == Stream(rb)[..sz] by {
      if |rb.current| > 0 {
        ShapedLength(rb.current);
        StreamSplit(rb.current, rb.ptr);
        StreamSplit(rb.current, rb.ptr + sz);
      }
    }
    (FirstBlockBytes(rb.current, rb.ptr, sz), rb2)
  }

  /** The multi-block copy of `rb_read`: the rest of the current block, then the loop. */
  function TakeAcross(rb: ReadBlock, sz: nat): (r: (seq<byte>, ReadBlock))
    requires RbValid(rb) && sz <= rb.len && rb.ptr + sz > BLOCK_SIZE
    ensures RbValid(r.1)
    ensures r.0 == Stream(rb)[..sz]
    ensures Stream(r.1) == Stream(rb)[sz..] && r.1.len == rb.len - sz
  {
    var copy := BLOCK_SIZE - rb.ptr;
    assert |rb.current| > 1 && |rb.current[0]| == BLOCK_SIZE by {
      if |rb.current| > 0 {
        ShapedLength(rb.current);
      }
    }
    StreamSplit(rb.current, rb.ptr);
    var first := rb.current[0][rb.ptr..];
    var (rest, rb2) := ReadLoop(rb.current[1..], sz - copy, rb.len - copy);
    assert first + rest == Stream(rb)[..sz];
    (first + rest, rb2)
  }

  /** The copying part of `rb_read`, once at least `sz` bytes are known to remain. */
  function RbTake(rb: ReadBlock, sz: nat): (r: (seq<byte>, ReadBlock))
    requires RbValid(rb) && sz <= rb.len
    requires rb.ptr < BLOCK_SIZE || |rb.current| == 0 || |rb.current[0]| == rb.ptr
    ensures RbValid(r.1)
    ensures r.0 == Stream(rb)[..sz]
    ensures Stream(r.1) == Stream(rb)[sz..] && r.1.len == rb.len - sz
  {
    if sz <= BLOCK_SIZE - rb.ptr then TakeWithin(rb, sz) else TakeAcross(rb, sz)
  }

  lemma AvailAfterRead(rb: ReadBlock, rb2: ReadBlock, sz: nat)
    requires RbValid(rb) && RbValid(rb2) && sz <= rb.len
    requires Stream(rb2) == Stream(rb)[sz..] && rb2.len == rb.len - sz
    ensures Avail(rb)[..sz] == Stream(rb)[..sz]
    ensures Avail(rb2) == Avail(rb)[sz..]
  {
  }

  /**
   * `rb_read`: NULL (and nothing consumed) when fewer than `sz` bytes remain;
   * otherwise the next `sz` bytes, freeing every block read to its end.
   */
  function RbRead(rb: ReadBlock, sz: nat): (r: (Option<seq<byte>>, ReadBlock))
    requires RbValid(rb)
    ensures RbValid(r.1)
    ensures rb.len < sz ==> r.0 == None && r.1 == rb
    ensures rb.len >= sz ==> r.0 == Some(Avail(rb)[..sz])
    ensures rb.len >= sz ==> r.1.len == rb.len - sz && Avail(r.1) == Avail(rb)[sz..]
  {
    if rb.len < sz then (None, rb)
    else
      var rb1 := RbAdvance(rb);
      var (bytes, rb2) := RbTake(rb1, sz);
      AvailAfterRead(rb, rb2, sz);
      (Some(bytes), rb2)
  }
}

=== FILE: cell.dfy ===
/**
 * The cell of `hive_cell.c`: a reference-counted actor with a mailbox, a
 * `quit` flag (set when the last reference goes), a `close` flag (set when the
 * actor asks to stop) and the Lua state hosting its behaviour, if any.
 *
 * Locks are omitted: every operation here is one critical section. Running the
 * behaviour is represented by the list of messages handed to it, in order.
 */
module Cells {
  import opened Common
  import opened Mailbox

  /** HIVE_PORT 5: the message `trash_msg` sends last, telling the behaviour it is finished. */
  const EXIT_PORT: int := 5

  /** An opaque `lua_State *`. */
  type Host = nat

  datatype Cell = Cell(ref: int, host: Option<Host>, mq: MQ, quit: bool, close: bool)

  ghost predicate CellValid(c: Cell)
  {
    MqValid(c.mq)
  }

  /** `cell_create`: no references, no host yet, an empty mailbox, both flags clear. */
  function CellCreate(): (c: Cell)
    ensures CellValid(c) && Contents(c.mq) == []
    ensures c.ref == 0 && c.host == None && !c.quit && !c.close
  {
    Cell(0, None, MqInit(), false, false)
  }

  /** `cell_grab`: one more reference. */
  function CellGrab(c: Cell): (r: Cell)
    ensures r.ref == c.ref + 1 && r.(ref := c.ref) == c
  {
    c.(ref := c.ref + 1)
  }

  /** `cell_release`: one reference fewer; the cell is marked for destruction when none remain. */
  function CellRelease(c: Cell): (r: Cell)
    ensures r.ref == c.ref - 1
    ensures r.quit <==> c.quit || c.ref == 1
    ensures r.(ref := c.ref, quit := c.quit) == c
  {
    if c.ref - 1 == 0 then c.(ref := 0, quit := true) else c.(ref := c.ref - 1)
  }

  /**
   * A grab followed by a release leaves the count as it was, but marks the
   * cell for destruction if it was not referenced before the pair.
   */
  lemma GrabRelease(c: Cell)
    ensures CellRelease(CellGrab(c)) == c.(quit := c.quit || c.ref == 0)
  {
  }

  /** `cell_send`: refused (1) once the cell quits or closes, otherwise queued (0). */
  function CellSend(c: Cell, port: int32, msg: Payload): (r: (int, Cell))
    requires CellValid(c)
    ensures CellValid(r.1)
    ensures c.quit || c.close ==> r == (1, c)
    ensures !(c.quit || c.close) ==>
      r.0 == 0 && Contents(r.1.mq) == Contents(c.mq) + [Message(port, msg)]
      && r.1.(mq := c.mq) == c
  {
    if c.quit || c.close then (1, c)
    else (0, c.(mq := MqPush(c.mq, Message(port, msg))))
  }

  /** `cell_close`: only raises the `close` flag. */
  function CellClose(c: Cell): (r: Cell)
    ensures r.close && r.(close := c.close) == c
  {
    c.(close := true)
  }

  /** Closing twice is closing once, and a closed cell accepts no more messages. */
  lemma CloseIdempotent(c: Cell, port: int32, msg: Payload)
    requires CellValid(c)
    ensures CellClose(CellClose(c)) == CellClose(c)
    ensures CellSend(CellClose(c), port, msg) == (1, CellClose(c))
  {
  }

  /** `cell_destroy`: legal only with no references left and no host attached. */
  predicate CanDestroy(c: Cell)
  {
    c.ref == 0 && c.host.None?
  }

  /** The values `cell_dispatch_message` returns. */
  datatype Outcome = CellQuit | CellEmpty | CellMessage

  /**
   * `trash_msg`: every queued message is handed to the behaviour in order,
   * then a port-5 message with no payload.
   */
  method TrashMsg(mq: MQ) returns (delivered: seq<Message>, drained: MQ)
    requires MqValid(mq)
    ensures MqValid(drained) && Contents(drained) == []
    ensures delivered == Contents(mq) + [Message(EXIT_PORT, None)]
  {
    delivered := [];
    drained := mq;
    var next := MqPop(drained);
    while next.0.Some?
      invariant MqValid(drained) && next == MqPop(drained)
      invariant delivered + Contents(drained) == Contents(mq)
      decreases Count(drained)
    {
      assert Contents(drained) == [next.0.value] + Contents(next.1);
      delivered := delivered + [next.0.value];
      drained := next.1;
      next := MqPop(drained);
    }
    delivered := delivered + [Message(EXIT_PORT, None)];
  }

  /**
   * What one visit of `cell_dispatch_message` does to cell `c`: the outcome
   * it reports, the cell afterwards (`None` once destroyed) and the messages
   * handed to the behaviour, in order.
   */
  ghost predicate Dispatched(c: Cell, outcome: Outcome, after: Option<Cell>, delivered: seq<Message>)
    requires CellValid(c)
  {
    && (after.Some? ==> CellValid(after.value))
    // a cell marked quit is destroyed
    && (c.quit ==> outcome == CellQuit && after == None && delivered == [])
    // a closing cell with a host is drained and ends with the port-5 message;
    // it loses its host, and `lua_close` collects its `self` proxy, whose
    // release takes one reference away (the last one when only the proxy held it)
    && (!c.quit && c.close && c.host.Some? ==>
         outcome == CellEmpty && delivered == Contents(c.mq) + [Message(EXIT_PORT, None)]
         && after.Some? && Contents(after.value.mq) == []
         && after.value.(mq := c.mq) == c.(host := None, ref := c.ref - 1, quit := c.ref == 0 || c.ref == 1))
    // otherwise at most the oldest message leaves the mailbox
    && (!c.quit && !(c.close && c.host.Some?) ==>
         after.Some? && Contents(after.value.mq) == (if Contents(c.mq) == [] then [] else Contents(c.mq)[1..]))
    // with nothing queued, or no host, nothing is delivered
    && (!c.quit && !(c.close && c.host.Some?) && (Contents(c.mq) == [] || c.host.None?) ==>
         outcome == CellEmpty && delivered == [] && after.value.(mq := c.mq) == c)
    // otherwise exactly the oldest message is delivered
    && (!c.quit && !c.close && c.host.Some? && Contents(c.mq) != [] ==>
         outcome == CellMessage && delivered == [Contents(c.mq)[0]]
         && after.value.(mq := c.mq) == c.(quit := c.ref == 0))
  }

  /** `cell_dispatch_message`: one visit of the scheduler to a cell. */
  method CellDispatch(c: Cell) returns (outcome: Outcome, after: Option<Cell>, delivered: seq<Message>)
    requires CellValid(c)
    requires c.quit ==> CanDestroy(c)
    ensures Dispatched(c, outcome, after, delivered)
  {
    if c.quit {
      return CellQuit, None, [];
    }
    if c.close && c.host.Some? {
      var d := c.(host := None);
      d := CellGrab(d);
      var trashed, drained := TrashMsg(d.mq);
      d := d.(mq := drained);
      d := CellRelease(d);
      // `scheduler_deletetask` closes the Lua state; the `__gc` of the
      // `self` proxy (`lrelease`) drops the reference `cell_new` gave it
      d := CellRelease(d);
      return CellEmpty, Some(d), trashed;
    }
    var (m, mq') := MqPop(c.mq);
    var d := c.(mq := mq');
    if m.None? || c.host.None? {
      return CellEmpty, Some(d), [];
    }
    d := CellGrab(d);
    delivered := [m.value];
    d := CellRelease(d);
    return CellMessage, Some(d), delivered;
  }
}

=== FILE: codec.dfy ===
/**
 * The message codec of `hive_seri.c`: `data_pack` turns a tuple of Lua
 * values into a block list, `data_unpack` turns it back.
 *
 * Every value starts with a tag byte whose low three bits are the type and
 * whose high five bits are a "cookie" (a width, a length or a flag). The
 * decoder is stated over the readable bytes of a `read_block`; `RbRead`'s
 * contract shows that each `rb_read` hands out exactly the next bytes of that
 * stream, or NULL when fewer remain.
 */
module Codec {
  import opened Common
  import opened Blocks

  const TYPE_NIL: int := 0
  const TYPE_BOOLEAN: int := 1
  const TYPE_NUMBER: int := 2
  const TYPE_USERDATA: int := 3
  const TYPE_SHORT_STRING: int := 4
  const TYPE_LONG_STRING: int := 5
  const TYPE_TABLE: int := 6
  const TYPE_CELL: int := 7

  const MAX_COOKIE: int := 32
  const MAX_DEPTH: int := 32

  /** Eight opaque bytes of a `double`; floating point is not interpreted. */
  type Bits64 = s: seq<byte> | |s| == 8 witness [0, 0, 0, 0, 0, 0, 0, 0]

  /** A raw 64-bit pointer (light userdata, or a `struct cell *`). */
  type Ptr = n: nat | n < 0x1_0000_0000_0000_0000

  /** A Lua string whose length fits the `int` the encoder casts it to. */
  type LuaString = s: seq<byte> | |s| < TWO_31

  /**
   * A Lua value as the encoder sees it. A number is `Int` when it is an
   * integer in `int32_t` range and `Real` otherwise. A table is its array
   * part (keys 1..n) followed by every pair `lua_next` enumerates, which
   * includes the array keys again. `Unsupported` stands for functions,
   * threads and full userdata that is not a cell.
   */
  datatype Value =
    | Nil
    | Bool(b: bool)
    | Int(i: int32)
    | Real(bits: Bits64)
    | LightUserData(p: Ptr)
    | Str(s: LuaString)
    | Table(arr: seq<Value>, hash: seq<Entry>)
    | CellRef(c: Ptr)
    | Unsupported

  datatype Entry = Entry(key: Value, val: Value)

  /** The Lua errors the codec raises; the source reports all decoding ones as "Invalid serialize stream". */
  datatype Error =
    | TooDeep
    | UnsupportedType
    | Truncated
    | BadNumberCookie
    | BadStringCookie
    | BadArrayCount
    | FloatArrayCount

  /**
   * `COMBINE_TYPE` as stored by a one-byte `wb_push`: the low byte of
   * `t | cookie << 3`. For a cookie in 0..31 the decoder recovers the pair as
   * `(b & 7, b >> 3)`.
   */
  function Tag(t: int, cookie: int): (b: byte)
    requires 0 <= t < 8
    ensures b % 8 == t
    ensures 0 <= cookie < MAX_COOKIE ==> b / 8 == cookie
  {
    var m := t + cookie * 8;
    var d := cookie - 32 * (m / 256);
    assert m % 256 == t + 8 * d;
    assert (t + 8 * d) % 8 == t by {
      assert 0 <= d < 32;
    }
    m % 256
  }

  // ---------------------------------------------------------------------------
  // Encoding

  /** `wb_integer`: 0, 1, 2 or 4 payload bytes chosen by magnitude; negatives always take 4. */
  function EncodeInt(v: int32): (r: seq<byte>)
    ensures |r| >= 1 && r[0] % 8 == TYPE_NUMBER
    // the cookie is the payload width
    ensures |r| == 1 + r[0] / 8
    ensures r[0] / 8 == if v == 0 then 0 else if v < 0 || v >= 0x10000 then 4 else if v < 0x100 then 1 else 2
  {
    if v == 0 then [Tag(TYPE_NUMBER, 0)]
    else if v < 0 then [Tag(TYPE_NUMBER, 4)] + I32LE(v)
    else if v < 0x100 then [Tag(TYPE_NUMBER, 1), v]
    else if v < 0x10000 then [Tag(TYPE_NUMBER, 2)] + LE(v, 2)
    else [Tag(TYPE_NUMBER, 4)] + I32LE(v)
  }

  /** `wb_string`: short strings carry their length in the cookie, long ones a 2- or 4-byte prefix. */
  function EncodeString(s: LuaString): (r: seq<byte>)
    ensures |r| > |s| && r[|r| - |s|..] == s
    ensures |s| < MAX_COOKIE ==> r[0] == Tag(TYPE_SHORT_STRING, |s|) && |r| == 1 + |s|
    // a long string's cookie is the width of its length prefix
    ensures |s| >= MAX_COOKIE ==>
      r[0] % 8 == TYPE_LONG_STRING && r[0] / 8 == (if |s| < 0x10000 then 2 else 4) && |r| == 1 + r[0] / 8 + |s|
  {
    if |s| < MAX_COOKIE then [Tag(TYPE_SHORT_STRING, |s|)] + s
    else if |s| < 0x10000 then [Tag(TYPE_LONG_STRING, 2)] + LE(|s|, 2) + s
    else [Tag(TYPE_LONG_STRING, 4)] + LE(|s|, 4) + s
  }

  /** `wb_pointer`: the type byte then the eight bytes of the pointer. */
  function EncodePointer(t: int, p: Ptr): (r: seq<byte>)
    requires 0 <= t < 8
    ensures |r| == 9 && r[0] == t
  {
    [Tag(t, 0)] + LE(p, 8)
  }

  /** The array header of `wb_table_array`: a count of 31 or more escapes to an encoded integer. */
  function EncodeArrayHeader(n: int32): (r: seq<byte>)
    ensures |r| >= 1 && r[0] % 8 == TYPE_TABLE
    // a count below 31 sits in the cookie, with nothing after the tag
    ensures n < MAX_COOKIE - 1 ==> |r| == 1
    ensures 0 <= n < MAX_COOKIE - 1 ==> r[0] / 8 == n
    // from 31 up the cookie is 31 and the count follows as an integer
    ensures n >= MAX_COOKIE - 1 ==> r[0] / 8 == MAX_COOKIE - 1 && r[1..] == EncodeInt(n)
  {
    if n >= MAX_COOKIE - 1 then [Tag(TYPE_TABLE, MAX_COOKIE - 1)] + EncodeInt(n)
    else [Tag(TYPE_TABLE, n)]
  }

  /** The test of `wb_table_hash` that drops keys already written by the array part. */
  predicate Skipped(key: Value, n: int)
  {
    key.Int? && 0 < key.i <= n
  }

  /**
   * `_pack_one` at nesting `depth`: refuses a call deeper than MAX_DEPTH and
   * an unsupported type; a table's elements are packed one level deeper.
   */
  function EncodeValue(v: Value, depth: nat): (r: Result<seq<byte>, Error>)
    ensures depth > MAX_DEPTH ==> r == Failure(TooDeep)
    ensures depth <= MAX_DEPTH && v.Unsupported? ==> r == Failure(UnsupportedType)
    ensures r.Success? ==> |r.value| >= 1
    decreases v
  {
    if depth > MAX_DEPTH then Failure(TooDeep)
    else match v
      case Nil => Success([Tag(TYPE_NIL, 0)])
      case Bool(b) => Success([Tag(TYPE_BOOLEAN, if b then 1 else 0)])
      case Int(i) => Success(EncodeInt(i))
      case Real(bits) => Success([Tag(TYPE_NUMBER, 8)] + bits)
      case LightUserData(p) => Success(EncodePointer(TYPE_USERDATA, p))
      case Str(s) => Success(EncodeString(s))
      case CellRef(c) => Success(EncodePointer(TYPE_CELL, c))
      case Unsupported => Failure(UnsupportedType)
      case Table(arr, hash) =>
        var n := Wrap32(|arr|);
        var a :- EncodeArray(arr, n, depth + 1);
        var h :- EncodeHash(hash, n, depth + 1);
        Success(EncodeArrayHeader(n) + a + h + [Tag(TYPE_NIL, 0)])
  }

  /**
   * The element loop of `wb_table_array`: the first `n` elements, `n` being
   * `lua_rawlen` as stored in an `int`.
   */
  function EncodeArray(arr: seq<Value>, n: int, depth: nat): Result<seq<byte>, Error>
    decreases arr
  {
    if n <= 0 || |arr| == 0 then Success([])
    else
      var x :- EncodeValue(arr[0], depth);
      var rest :- EncodeArray(arr[1..], n - 1, depth);
      Success(x + rest)
  }

  /**
   * The array part packs exactly when each of its first `n` elements does,
   * into at least a byte apiece; past the depth limit a non-empty one fails.
   */
  lemma {:induction false} ArrayEncodes(arr: seq<Value>, n: int, depth: nat)
    ensures EncodeArray(arr, n, depth).Success? <==>
      forall i :: 0 <= i < |arr| && i < n ==> EncodeValue(arr[i], depth).Success?
    ensures EncodeArray(arr, n, depth).Success? && n > 0 ==>
      |EncodeArray(arr, n, depth).value| >= if n < |arr| then n else |arr|
    ensures depth > MAX_DEPTH && n > 0 && |arr| > 0 ==> EncodeArray(arr, n, depth) == Failure(TooDeep)
    decreases arr
  {
    if n > 0 && |arr| > 0 {
      ArrayEncodes(arr[1..], n - 1, depth);
      assert forall i :: 1 <= i < |arr| ==> arr[1..][i - 1] == arr[i];
    }
  }

  /** One pair of `wb_table_hash`: the key, then the value. */
  function EncodeEntry(e: Entry, depth: nat): (r: Result<seq<byte>, Error>)
    ensures r.Success? <==> EncodeValue(e.key, depth).Success? && EncodeValue(e.val, depth).Success?
    ensures r.Success? ==> |r.value| >= 2
    decreases e
  {
    var k :- EncodeValue(e.key, depth);
    var v :- EncodeValue(e.val, depth);
    Success(k + v)
  }

  /** The `lua_next` loop of `wb_table_hash`, without its closing nil. */
  function EncodeHash(hash: seq<Entry>, n: int, depth: nat): Result<seq<byte>, Error>
    decreases hash
  {
    if |hash| == 0 then Success([])
    else if Skipped(hash[0].key, n) then EncodeHash(hash[1..], n, depth)
    else
      var e :- EncodeEntry(hash[0], depth);
      var rest :- EncodeHash(hash[1..], n, depth);
      Success(e + rest)
  }

  /**
   * The pair loop packs exactly when every pair it does not skip packs; when
   * it skips them all it writes nothing.
   */
  lemma {:induction false} HashEncodes(hash: seq<Entry>, n: int, depth: nat)
    ensures EncodeHash(hash, n, depth).Success? <==>
      forall i :: 0 <= i < |hash| && !Skipped(hash[i].key, n) ==> EncodeEntry(hash[i], depth).Success?
    ensures (forall i :: 0 <= i < |hash| ==> Skipped(hash[i].key, n)) ==> EncodeHash(hash, n, depth) == Success([])
    decreases hash
  {
    if |hash| > 0 {
      HashEncodes(hash[1..], n, depth);
      assert forall i :: 1 <= i < |hash| ==> hash[1..][i - 1] == hash[i];
    }
  }

  /** `_pack_from`: every argument at depth 0, one after another. */
  function EncodeAll(vs: seq<Value>): Result<seq<byte>, Error>
  {
    if |vs| == 0 then Success([])
    else
      var x :- EncodeValue(vs[0], 0);
      var rest :- EncodeAll(vs[1..]);
      Success(x + rest)
  }

  /** The arguments pack exactly when each one does, into at least one byte apiece. */
  lemma {:induction false} AllEncodes(vs: seq<Value>)
    ensures EncodeAll(vs).Success? <==> forall i :: 0 <= i < |vs| ==> EncodeValue(vs[i], 0).Success?
    ensures EncodeAll(vs).Success? ==> |EncodeAll(vs).value| >= |vs|
  {
    if |vs| > 0 {
      AllEncodes(vs[1..]);
      assert forall i :: 1 <= i < |vs| ==> vs[1..][i - 1] == vs[i];
    }
  }

  /** `_pack_from` over a write buffer: each encoded argument is pushed as it is produced. */
  function PackFrom(w: WriteBlock, vs: seq<Value>): (r: Result<WriteBlock, Error>)
    requires WbValid(w)
    ensures r.Success? <==> EncodeAll(vs).Success?
    ensures r.Success? ==> WbValid(r.value)
    ensures r.Success? ==> Flatten(r.value.blocks) == Flatten(w.blocks) + EncodeAll(vs).value
    ensures r.Success? ==> r.value.len == w.len + |EncodeAll(vs).value|
    decreases |vs|, 1
  {
    if |vs| == 0 then Success(w)
    else
      var x :- EncodeValue(vs[0], 0);
      PackRest(w, x, vs)
  }

  /** One step of `_pack_from` once the first argument has encoded to `x`: push it, then pack the rest. */
  function PackRest(w: WriteBlock, x: seq<byte>, vs: seq<Value>): (r: Result<WriteBlock, Error>)
    requires WbValid(w) && |vs| > 0 && EncodeValue(vs[0], 0) == Success(x)
    ensures r.Success? <==> EncodeAll(vs).Success?
    ensures r.Success? ==> WbValid(r.value)
    ensures r.Success? ==> Flatten(r.value.blocks) == Flatten(w.blocks) + EncodeAll(vs).value
    ensures r.Success? ==> r.value.len == w.len + |EncodeAll(vs).value|
    decreases |vs|, 0
  {
    var w1 := WbPush(w, x);
    var r1 := PackFrom(w1, vs[1..]);
    EncodeAllCons(vs, x);
    PackStep(w, x, w1, r1, EncodeAll(vs), EncodeAll(vs[1..]));
    r1
  }

  /**
   * Pushing `x` and then appending `rest` appends `all` when `all` is `x`
   * followed by `rest`, and fails when that does.
   */
  lemma PackStep(w: WriteBlock, x: seq<byte>, w1: WriteBlock, r1: Result<WriteBlock, Error>,
                 all: Result<seq<byte>, Error>, rest: Result<seq<byte>, Error>)
    requires all.Success? <==> rest.Success?
    requires all.Success? ==> all.value == x + rest.value
    requires Flatten(w1.blocks) == Flatten(w.blocks) + x && w1.len == w.len + |x|
    requires r1.Success? <==> rest.Success?
    requires r1.Success? ==> Flatten(r1.value.blocks) == Flatten(w1.blocks) + rest.value
    requires r1.Success? ==> r1.value.len == w1.len + |rest.value|
    ensures r1.Success? <==> all.Success?
    ensures r1.Success? ==> Flatten(r1.value.blocks) == Flatten(w.blocks) + all.value
    ensures r1.Success? ==> r1.value.len == w.len + |all.value|
  {
    if r1.Success? {
      assert (Flatten(w.blocks) + x) + rest.value == Flatten(w.blocks) + (x + rest.value);
    }
  }

  /** `EncodeAll` of a non-empty list whose head encodes to `x`. */
  lemma EncodeAllCons(vs: seq<Value>, x: seq<byte>)
    requires |vs| > 0 && EncodeValue(vs[0], 0) == Success(x)
    ensures EncodeAll(vs).Success? <==> EncodeAll(vs[1..]).Success?
    ensures EncodeAll(vs).Success? ==> EncodeAll(vs).value == x + EncodeAll(vs[1..]).value
  {
  }

  /**
   * `data_pack`: a zero header, the packed arguments, then `wb_close` writes
   * the total length (header included) into the header.
   */
  function DataPack(vs: seq<Value>): (r: Result<seq<seq<byte>>, Error>)
    ensures r.Success? <==> EncodeAll(vs).Success?
    ensures r.Success? ==> Shaped(r.value) && |r.value| >= 1 && |r.value[0]| >= 4
    ensures r.Success? ==> Flatten(r.value) == I32LE(Wrap32(4 + |EncodeAll(vs).value|)) + EncodeAll(vs).value
  {
    var w :- PackFrom(WbInit(), vs);
    Success(CloseMessage(w, EncodeAll(vs).value))
  }

  /** `wb_close` on a writer holding a zero header and then `payload`. */
  function CloseMessage(w: WriteBlock, payload: seq<byte>): (r: seq<seq<byte>>)
    requires WbValid(w) && Flatten(w.blocks) == I32LE(0) + payload
    ensures Shaped(r) && |r| >= 1 && |r[0]| >= 4
    ensures Flatten(r) == I32LE(Wrap32(4 + |payload|)) + payload
  {
    assert Flatten(w.blocks)[4..] == payload;
    WbClose(w)
  }

  // ---------------------------------------------------------------------------
  // Decoding

  ghost predicate IsSuffix(r: seq<byte>, s: seq<byte>)
  {
    |r| <= |s| && r == s[|s| - |r|..]
  }

  /** `_get_number`: cookie 0, 1, 2, 4 (signed) or 8 (an opaque double). */
  function GetNumber(cookie: int, s: seq<byte>): (r: Result<(Value, seq<byte>), Error>)
    ensures r.Success? ==> IsSuffix(r.value.1, s) && (r.value.0.Int? || r.value.0.Real?)
    ensures r.Success? ==> |r.value.1| == |s| - cookie
    ensures cookie !in {0, 1, 2, 4, 8} ==> r == Failure(BadNumberCookie)
    ensures cookie in {0, 1, 2, 4, 8} ==> (r.Failure? <==> |s| < cookie) && (r.Failure? ==> r.error == Truncated)
  {
    if cookie == 0 then Success((Int(0), s))
    else if cookie == 1 then
      if |s| < 1 then Failure(Truncated) else Success((Int(s[0]), s[1..]))
    else if cookie == 2 then
      if |s| < 2 then Failure(Truncated) else Success((Int(FromLE(s[..2])), s[2..]))
    else if cookie == 4 then
      if |s| < 4 then Failure(Truncated) else Success((Int(ReadI32(s[..4])), s[4..]))
    else if cookie == 8 then
      if |s| < 8 then Failure(Truncated) else Success((Real(s[..8]), s[8..]))
    else Failure(BadNumberCookie)
  }

  /** `_get_pointer`: eight bytes of pointer. */
  function GetPointer(s: seq<byte>): (r: Result<(Ptr, seq<byte>), Error>)
    ensures r.Success? ==> IsSuffix(r.value.1, s) && |r.value.1| == |s| - 8
    ensures |s| < 8 <==> r == Failure(Truncated)
  {
    if |s| < 8 then Failure(Truncated)
    else
      assert Pow256(8) == 0x1_0000_0000_0000_0000;
      Success((FromLE(s[..8]), s[8..]))
  }

  /**
   * `_get_buffer` with the missing NULL check added: a string longer than the
   * remaining stream is a truncation error (see `GetBufferAsWritten`).
   */
  function GetBuffer(len: nat, s: seq<byte>): (r: Result<(Value, seq<byte>), Error>)
    ensures r.Success? <==> len <= |s| && len < TWO_31
    ensures r.Success? ==> r.value.0 == Str(s[..len]) && r.value.1 == s[len..]
  {
    if len >= TWO_31 || |s| < len then Failure(Truncated)
    else Success((Str(s[..len]), s[len..]))
  }

  /** The two outcomes of `_get_buffer` as written: `rb_read` returns NULL on truncation and it is pushed anyway. */
  datatype BufferPush = Pushed(bytes: seq<byte>, rest: seq<byte>) | PushedNull(len: int)

  /** `_get_buffer` as written: no NULL check between `rb_read` and `lua_pushlstring`. */
  function GetBufferAsWritten(len: nat, s: seq<byte>): (r: BufferPush)
    ensures r.Pushed? <==> len <= |s|
    ensures r.Pushed? ==> r.bytes + r.rest == s && |r.bytes| == len
  {
    if |s| < len then PushedNull(len)
    else
      assert s[..len] + s[len..] == s;
      Pushed(s[..len], s[len..])
  }

  /** A truncated short string reaches `lua_pushlstring` with a NULL pointer instead of raising. */
  lemma TruncatedStringAsWritten()
    ensures GetBufferAsWritten(5, [1, 2]) == PushedNull(5)
    ensures DecodeValue([Tag(TYPE_SHORT_STRING, 5), 1, 2]) == Failure(Truncated)
  {
    var s: seq<byte> := [Tag(TYPE_SHORT_STRING, 5), 1, 2];
    assert s[0] % 8 == TYPE_SHORT_STRING && s[0] / 8 == 5;
    assert s[1..] == [1, 2];
  }

  /**
   * The branches of `_push_value` that do not nest: nil ignores its cookie,
   * any non-zero boolean cookie is true, and a long string reads its 2- or
   * 4-byte length first.
   */
  function PushScalar(t: int, cookie: int, s: seq<byte>): (r: Result<(Value, seq<byte>), Error>)
    requires 0 <= t < 8 && t != TYPE_TABLE
    ensures r.Success? ==> IsSuffix(r.value.1, s)
    ensures t == TYPE_NIL || t == TYPE_BOOLEAN ==> r.Success? && r.value.1 == s
    ensures t == TYPE_USERDATA || t == TYPE_CELL ==>
      (r.Failure? <==> |s| < 8) && (r.Failure? ==> r.error == Truncated)
    ensures t == TYPE_SHORT_STRING && 0 <= cookie < MAX_COOKIE ==>
      (r.Failure? <==> |s| < cookie) && (r.Failure? ==> r.error == Truncated)
    ensures t == TYPE_LONG_STRING && (cookie == 2 || cookie == 4) && |s| < cookie ==> r == Failure(Truncated)
    ensures t == TYPE_LONG_STRING && cookie == 2 && |s| >= 2 ==>
      (r.Success? <==> FromLE(s[..2]) <= |s| - 2)
    ensures t == TYPE_LONG_STRING && cookie == 4 && |s| >= 4 ==>
      (r.Success? <==> FromLE(s[..4]) <= |s| - 4 && FromLE(s[..4]) < TWO_31)
    ensures t == TYPE_LONG_STRING && cookie != 2 && cookie != 4 ==> r == Failure(BadStringCookie)
  {
    if t == TYPE_NIL then Success((Nil, s))
    else if t == TYPE_BOOLEAN then Success((Bool(cookie != 0), s))
    else if t == TYPE_NUMBER then GetNumber(cookie, s)
    else if t == TYPE_USERDATA then
      var (p, rest) :- GetPointer(s);
      Success((LightUserData(p), rest))
    else if t == TYPE_CELL then
      var (c, rest) :- GetPointer(s);
      Success((CellRef(c), rest))
    else if t == TYPE_SHORT_STRING then
      if cookie < 0 then Failure(Truncated) else GetBuffer(cookie, s)
    else if cookie == 2 then
      if |s| < 2 then Failure(Truncated) else GetBuffer(FromLE(s[..2]), s[2..])
    else if cookie != 4 then Failure(BadStringCookie)
    else if |s| < 4 then Failure(Truncated) else GetBuffer(FromLE(s[..4]), s[4..])
  }

  /** `_push_value`: decodes the payload of a value whose tag has been read. */
  function PushValue(t: int, cookie: int, s: seq<byte>): (r: Result<(Value, seq<byte>), Error>)
    requires 0 <= t < 8
    ensures r.Success? ==> IsSuffix(r.value.1, s)
    decreases |s|, 3
  {
    if t == TYPE_TABLE then UnpackTable(cookie, s) else PushScalar(t, cookie, s)
  }

  /**
   * `_unpack_table`: the array count is the cookie, or (cookie 31) an encoded
   * number that follows; then that many values, then key/value pairs until a
   * nil key.
   */
  function UnpackTable(cookie: int, s: seq<byte>): (r: Result<(Value, seq<byte>), Error>)
    ensures r.Success? ==> IsSuffix(r.value.1, s) && r.value.0.Table?
    ensures cookie == MAX_COOKIE - 1 && |s| > 0 && s[0] % 8 != TYPE_NUMBER ==> r == Failure(BadArrayCount)
    decreases |s|, 2
  {
    var (n, s1) :- ArrayCount(cookie, s);
    var (arr, s2) :- DecodeArray(s1, n);
    var (hash, s3) :- DecodeHash(s2);
    Success((Table(arr, hash), s3))
  }

  /** The count reading at the start of `_unpack_table`. */
  function ArrayCount(cookie: int, s: seq<byte>): (r: Result<(int32, seq<byte>), Error>)
    ensures r.Success? ==> IsSuffix(r.value.1, s)
    ensures cookie != MAX_COOKIE - 1 && -TWO_31 <= cookie < TWO_31 ==> r == Success((cookie, s))
  {
    if cookie != MAX_COOKIE - 1 then
      if -TWO_31 <= cookie < TWO_31 then Success((cookie, s)) else Failure(BadArrayCount)
    else if |s| < 1 then Failure(Truncated)
    else if s[0] % 8 != TYPE_NUMBER then Failure(BadArrayCount)
    else
      var (num, rest) :- GetNumber(s[0] / 8, s[1..]);
      if num.Real? then Failure(FloatArrayCount) else Success((num.i, rest))
  }

  /** The array loop of `_unpack_table`: exactly `n` values (none when `n` is not positive). */
  function DecodeArray(s: seq<byte>, n: int32): (r: Result<(seq<Value>, seq<byte>), Error>)
    ensures r.Success? ==> IsSuffix(r.value.1, s) && |r.value.0| == (if n < 0 then 0 else n)
    decreases |s|, 1
  {
    if n <= 0 then Success(([], s))
    else
      var (x, s1) :- DecodeValue(s);
      var (xs, s2) :- DecodeArray(s1, n - 1);
      Success(([x] + xs, s2))
  }

  /** The pair loop of `_unpack_table`, ending at (and consuming) the first nil key. */
  function DecodeHash(s: seq<byte>): (r: Result<(seq<Entry>, seq<byte>), Error>)
    ensures r.Success? ==> IsSuffix(r.value.1, s) && |r.value.1| < |s|
    decreases |s|, 1
  {
    var (k, s1) :- DecodeValue(s);
    if k.Nil? then Success(([], s1))
    else
      var (v, s2) :- DecodeValue(s1);
      var (rest, s3) :- DecodeHash(s2);
      Success(([Entry(k, v)] + rest, s3))
  }

  /** `_unpack_one`: a tag byte, then its payload; an exhausted stream is an error. */
  function DecodeValue(s: seq<byte>): (r: Result<(Value, seq<byte>), Error>)
    ensures r.Success? ==> IsSuffix(r.value.1, s) && |r.value.1| < |s|
    ensures |s| == 0 ==> r == Failure(Truncated)
    decreases |s|, 0
  {
    if |s| == 0 then Failure(Truncated)
    else PushValue(s[0] % 8, s[0] / 8, s[1..])
  }

  // ---------------------------------------------------------------------------
  // The decoder reads only what it needs

  lemma Split(s: seq<byte>, x: seq<byte>, k: int)
    requires 0 <= k <= |s|
    ensures (s + x)[..k] == s[..k] && (s + x)[k..] == s[k..] + x
  {
  }

  /**
   * A value that decodes from `s` decodes the same way from `s` followed by
   * anything: the decoder never looks past the bytes it consumes.
   */
  lemma {:induction false} ValueExtends(s: seq<byte>, x: seq<byte>)
    requires DecodeValue(s).Success?
    ensures DecodeValue(s + x) == Success((DecodeValue(s).value.0, DecodeValue(s).value.1 + x))
    decreases |s|, 0
  {
    Split(s, x, 1);
    assert (s + x)[0] == s[0];
    PushExtends(s[0] % 8, s[0] / 8, s[1..], x);
  }

  lemma {:induction false} PushExtends(t: int, cookie: int, s: seq<byte>, x: seq<byte>)
    requires 0 <= t < 8 && PushValue(t, cookie, s).Success?
    ensures PushValue(t, cookie, s + x) == Success((PushValue(t, cookie, s).value.0, PushValue(t, cookie, s).value.1 + x))
    decreases |s|, 3
  {
    if t == TYPE_TABLE {
      TableExtends(cookie, s, x);
    } else {
      ScalarExtends(t, cookie, s, x);
    }
  }

  lemma {:induction false} TableExtends(cookie: int, s: seq<byte>, x: seq<byte>)
    requires UnpackTable(cookie, s).Success?
    ensures UnpackTable(cookie, s + x) == Success((UnpackTable(cookie, s).value.0, UnpackTable(cookie, s).value.1 + x))
    decreases |s|, 2
  {
    var (n, s1) := ArrayCount(cookie, s).value;
    CountExtends(cookie, s, x);
    var (arr, s2) := DecodeArray(s1, n).value;
    ArrayExtends(s1, n, x);
    HashExtends(s2, x);
  }

  lemma {:induction false} ArrayExtends(s: seq<byte>, n: int32, x: seq<byte>)
    requires DecodeArray(s, n).Success?
    ensures DecodeArray(s + x, n) == Success((DecodeArray(s, n).value.0, DecodeArray(s, n).value.1 + x))
    decreases |s|, 1
  {
    if n > 0 {
      var (v, s1) := DecodeValue(s).value;
      ValueExtends(s, x);
      ArrayExtends(s1, n - 1, x);
    }
  }

  lemma {:induction false} HashExtends(s: seq<byte>, x: seq<byte>)
    requires DecodeHash(s).Success?
    ensures DecodeHash(s + x) == Success((DecodeHash(s).value.0, DecodeHash(s).value.1 + x))
    decreases |s|, 1
  {
    var (k, s1) := DecodeValue(s).value;
    ValueExtends(s, x);
    if !k.Nil? {
      var (v, s2) := DecodeValue(s1).value;
      ValueExtends(s1, x);
      HashExtends(s2, x);
    }
  }

  lemma CountExtends(cookie: int, s: seq<byte>, x: seq<byte>)
    requires ArrayCount(cookie, s).Success?
    ensures ArrayCount(cookie, s + x) == Success((ArrayCount(cookie, s).value.0, ArrayCount(cookie, s).value.1 + x))
  {
    if cookie == MAX_COOKIE - 1 {
      Split(s, x, 1);
      assert (s + x)[0] == s[0];
      NumberExtends(s[0] / 8, s[1..], x);
    }
  }

  lemma NumberExtends(cookie: int, s: seq<byte>, x: seq<byte>)
    requires GetNumber(cookie, s).Success?
    ensures GetNumber(cookie, s + x) == Success((GetNumber(cookie, s).value.0, GetNumber(cookie, s).value.1 + x))
  {
    Split(s, x, cookie);
  }

  lemma BufferExtends(len: nat, s: seq<byte>, x: seq<byte>)
    requires GetBuffer(len, s).Success?
    ensures GetBuffer(len, s + x) == Success((GetBuffer(len, s).value.0, GetBuffer(len, s).value.1 + x))
  {
    Split(s, x, len);
  }

  lemma ScalarExtends(t: int, cookie: int, s: seq<byte>, x: seq<byte>)
    requires 0 <= t < 8 && t != TYPE_TABLE && PushScalar(t, cookie, s).Success?
    ensures PushScalar(t, cookie, s + x) == Success((PushScalar(t, cookie, s).value.0, PushScalar(t, cookie, s).value.1 + x))
  {
    if t == TYPE_NUMBER {
      NumberExtends(cookie, s, x);
    } else if t == TYPE_USERDATA || t == TYPE_CELL {
      Split(s, x, 8);
    } else if t == TYPE_SHORT_STRING {
      BufferExtends(cookie, s, x);
    } else if t == TYPE_LONG_STRING {
      Split(s, x, cookie);
      BufferExtends(FromLE(s[..cookie]), s[cookie..], x);
    }
  }

  /** The loop of `data_unpack`: values until the readable bytes run out exactly at a tag. */
  function DecodeAll(s: seq<byte>): (r: Result<seq<Value>, Error>)
    ensures |s| == 0 ==> r == Success([])
    decreases |s|
  {
    if |s| == 0 then Success([])
    else
      var (v, rest) :- PushValue(s[0] % 8, s[0] / 8, s[1..]);
      var vs :- DecodeAll(rest);
      Success([v] + vs)
  }

  /** `data_unpack`: `rb_init` on the list, then decode what the header says is readable. */
  function DataUnpack(bs: seq<seq<byte>>): (r: Result<seq<Value>, Error>)
    requires Shaped(bs) && |bs| >= 1 && |bs[0]| >= 4
    requires ReadI32(bs[0][..4]) <= |Flatten(bs)|
    ensures ReadI32(bs[0][..4]) <= 4 ==> r == Success([])
  {
    DecodeAll(Avail(RbInit(bs)))
  }
}

module CodecRoundTrip {
  import opened Common
  import opened Blocks
  import opened Codec

  // ---------------------------------------------------------------------------
  // Which values a Lua state can hold, and what the receiver gets back

  /**
   * A value a Lua stack can actually hold: no table has a nil key, and no
   * array part is too long for the `int` `lua_rawlen` is stored in.
   */
  predicate Valid(v: Value)
    decreases v
  {
    match v
    case Table(arr, hash) => |arr| < TWO_31 && ValidArray(arr) && ValidHash(hash)
    case _ => true
  }

  predicate ValidArray(arr: seq<Value>)
    decreases arr
  {
    |arr| == 0 || (Valid(arr[0]) && ValidArray(arr[1..]))
  }

  predicate ValidEntry(e: Entry)
    decreases e
  {
    !e.key.Nil? && Valid(e.key) && Valid(e.val)
  }

  predicate ValidHash(hash: seq<Entry>)
    decreases hash
  {
    |hash| == 0 || (ValidEntry(hash[0]) && ValidHash(hash[1..]))
  }

  /**
   * The table the receiver rebuilds: `wb_table_hash` does not send pairs whose
   * key is an integer in 1..n (they travel in the array part), so they are
   * dropped from the pair list; every nested table is normalised too.
   */
  function Normalize(v: Value): (r: Value)
    ensures r.Nil? <==> v.Nil?
    decreases v
  {
    match v
    case Table(arr, hash) => Table(NormalizeArray(arr), NormalizeHash(hash, |arr|))
    case _ => v
  }

  function NormalizeArray(arr: seq<Value>): (r: seq<Value>)
    ensures |r| == |arr|
    decreases arr
  {
    if |arr| == 0 then [] else [Normalize(arr[0])] + NormalizeArray(arr[1..])
  }

  function NormalizeEntry(e: Entry): Entry
    decreases e
  {
    Entry(Normalize(e.key), Normalize(e.val))
  }

  function NormalizeHash(hash: seq<Entry>, n: int): (r: seq<Entry>)
    ensures |r| <= |hash|
    decreases hash
  {
    if |hash| == 0 then []
    else if Skipped(hash[0].key, n) then NormalizeHash(hash[1..], n)
    else [NormalizeEntry(hash[0])] + NormalizeHash(hash[1..], n)
  }

  // ---------------------------------------------------------------------------
  // Scalars

  lemma IntegerRoundTrip(v: int32, rest: seq<byte>)
    ensures EncodeInt(v)[0] % 8 == TYPE_NUMBER
    ensures GetNumber(EncodeInt(v)[0] / 8, EncodeInt(v)[1..] + rest) == Success((Int(v), rest))
  {
    var e := EncodeInt(v);
    var s := e[1..] + rest;
    if v == 0 {
    } else if v < 0 || v >= 0x10000 {
      assert e[0] / 8 == 4;
      assert s[..4] == I32LE(v) && s[4..] == rest;
      ReadI32OfI32(v);
    } else if v < 0x100 {
      assert e[0] / 8 == 1;
      assert s[0] == v && s[1..] == rest;
    } else {
      assert e[0] / 8 == 2;
      assert s[..2] == LE(v, 2) && s[2..] == rest;
      assert Pow256(2) == 0x10000;
      FromLEOfLE(v, 2);
    }
  }

  lemma StringRoundTrip(str: LuaString, rest: seq<byte>)
    ensures var e := EncodeString(str);
      PushScalar(e[0] % 8, e[0] / 8, e[1..] + rest) == Success((Str(str), rest))
  {
    var e := EncodeString(str);
    var s := e[1..] + rest;
    if |str| < MAX_COOKIE {
      assert s == str + rest;
      assert s[..|str|] == str && s[|str|..] == rest;
    } else if |str| < 0x10000 {
      assert e[0] / 8 == 2;
      assert s[..2] == LE(|str|, 2) && s[2..] == str + rest;
      assert Pow256(2) == 0x10000;
      FromLEOfLE(|str|, 2);
      assert (str + rest)[..|str|] == str && (str + rest)[|str|..] == rest;
    } else {
      assert e[0] / 8 == 4;
      assert s[..4] == LE(|str|, 4) && s[4..] == str + rest;
      assert Pow256(4) == TWO_32;
      FromLEOfLE(|str|, 4);
      assert (str + rest)[..|str|] == str && (str + rest)[|str|..] == rest;
    }
  }

  lemma PointerRoundTrip(t: int, p: Ptr, rest: seq<byte>)
    requires t == TYPE_USERDATA || t == TYPE_CELL
    ensures var e := EncodePointer(t, p);
      e[0] % 8 == t && GetPointer(e[1..] + rest) == Success((p, rest))
  {
    var s := EncodePointer(t, p)[1..] + rest;
    assert s[..8] == LE(p, 8) && s[8..] == rest;
    assert Pow256(8) == 0x1_0000_0000_0000_0000;
    FromLEOfLE(p, 8);
  }

  // ---------------------------------------------------------------------------
  // Values, arrays and pair lists

  /**
   * A strict prefix of an encoded value never decodes: the receiver of a
   * cut-off message raises "Invalid serialize stream" rather than reading a
   * wrong value.
   */
  lemma StrictPrefixFails(v: Value, depth: nat, k: nat)
    requires Valid(v) && EncodeValue(v, depth).Success? && k < |EncodeValue(v, depth).value|
    ensures DecodeValue(EncodeValue(v, depth).value[..k]).Failure?
  {
    var e := EncodeValue(v, depth).value;
    assert e[..k] + e[k..] == e;
    assert e + [] == e;
    if DecodeValue(e[..k]).Success? {
      ValueExtends(e[..k], e[k..]);
      ValueRoundTrip(v, depth, []);
      assert false;
    }
  }

  /**
   * Whatever follows an encoded value in the stream, decoding reads exactly
   * that value back, in its normalised form.
   */
  lemma {:induction false} ValueRoundTrip(v: Value, depth: nat, rest: seq<byte>)
    requires Valid(v) && EncodeValue(v, depth).Success?
    ensures DecodeValue(EncodeValue(v, depth).value + rest) == Success((Normalize(v), rest))
    decreases v
  {
    var e := EncodeValue(v, depth).value;
    var s := e + rest;
    assert s[0] == e[0] && s[1..] == e[1..] + rest;
    match v
    case Nil =>
    case Bool(b) =>
    case Int(i) => IntegerRoundTrip(i, rest);
    case Real(bits) =>
      assert e[0] / 8 == 8 && s[1..][..8] == bits && s[1..][8..] == rest;
    case LightUserData(p) => PointerRoundTrip(TYPE_USERDATA, p, rest);
    case CellRef(c) => PointerRoundTrip(TYPE_CELL, c, rest);
    case Str(str) => StringRoundTrip(str, rest);
    case Table(arr, hash) =>
      TableRoundTrip(arr, hash, depth, rest);
  }

  /** The array count of a table header reads back as the sender's `array_size`. */
  lemma HeaderRoundTrip(n: int32, tail: seq<byte>)
    requires n >= 0
    ensures var hd := EncodeArrayHeader(n);
      hd[0] % 8 == TYPE_TABLE && ArrayCount(hd[0] / 8, hd[1..] + tail) == Success((n, tail))
  {
    var hd := EncodeArrayHeader(n);
    if n >= MAX_COOKIE - 1 {
      var ie := EncodeInt(n);
      assert hd[1..] + tail == ie + tail;
      IntegerRoundTrip(n, tail);
      assert (ie + tail)[1..] == ie[1..] + tail;
    }
  }

  /** The bytes of a packed table: header, array part, hash part, closing nil. */
  lemma TableBytes(arr: seq<Value>, hash: seq<Entry>, depth: nat)
    requires |arr| < TWO_31 && EncodeValue(Table(arr, hash), depth).Success?
    ensures EncodeArray(arr, |arr|, depth + 1).Success? && EncodeHash(hash, |arr|, depth + 1).Success?
    ensures EncodeValue(Table(arr, hash), depth).value
         == EncodeArrayHeader(|arr|) + EncodeArray(arr, |arr|, depth + 1).value
            + EncodeHash(hash, |arr|, depth + 1).value + [Tag(TYPE_NIL, 0)]
  {
    assert Wrap32(|arr|) == |arr|;
  }

  /** A byte tagged as a table hands the rest of the stream to `_unpack_table`. */
  lemma DecodeTableTag(hd: seq<byte>, tail: seq<byte>)
    requires |hd| > 0 && hd[0] % 8 == TYPE_TABLE
    ensures DecodeValue(hd + tail) == UnpackTable(hd[0] / 8, hd[1..] + tail)
  {
    var s := hd + tail;
    assert s[0] == hd[0] && s[1..] == hd[1..] + tail;
  }

  /** `_unpack_table` read as its three steps. */
  lemma UnpackSteps(cookie: int, s: seq<byte>, n: int32, arr: seq<Value>, hash: seq<Entry>,
                    s1: seq<byte>, s2: seq<byte>, s3: seq<byte>)
    requires ArrayCount(cookie, s) == Success((n, s1))
    requires DecodeArray(s1, n) == Success((arr, s2))
    requires DecodeHash(s2) == Success((hash, s3))
    ensures UnpackTable(cookie, s) == Success((Table(arr, hash), s3))
  {
  }

  lemma Regroup(hd: seq<byte>, a: seq<byte>, h: seq<byte>, t: seq<byte>, rest: seq<byte>)
    ensures hd + a + h + t + rest == hd + (a + (h + t + rest))
  {
  }

  /** A table header followed by a decodable array part and hash part decodes to the table. */
  lemma TableDecodes(hd: seq<byte>, tail: seq<byte>, hashTail: seq<byte>, n: int32,
                     arr: seq<Value>, hash: seq<Entry>, rest: seq<byte>)
    requires |hd| > 0 && hd[0] % 8 == TYPE_TABLE
    requires ArrayCount(hd[0] / 8, hd[1..] + tail) == Success((n, tail))
    requires DecodeArray(tail, n) == Success((arr, hashTail))
    requires DecodeHash(hashTail) == Success((hash, rest))
    ensures DecodeValue(hd + tail) == Success((Table(arr, hash), rest))
  {
    UnpackSteps(hd[0] / 8, hd[1..] + tail, n, arr, hash, tail, hashTail, rest);
    DecodeTableTag(hd, tail);
  }

  lemma {:induction false} TableRoundTrip(arr: seq<Value>, hash: seq<Entry>, depth: nat, rest: seq<byte>)
    requires Valid(Table(arr, hash)) && EncodeValue(Table(arr, hash), depth).Success?
    ensures DecodeValue(EncodeValue(Table(arr, hash), depth).value + rest)
         == Success((Normalize(Table(arr, hash)), rest))
    decreases Table(arr, hash), 0
  {
    var n := |arr|;
    TableBytes(arr, hash, depth);
    var a := EncodeArray(arr, n, depth + 1).value;
    var h := EncodeHash(hash, n, depth + 1).value;
    var hashTail := h + [Tag(TYPE_NIL, 0)] + rest;
    var hd := EncodeArrayHeader(n);
    HeaderRoundTrip(n, a + hashTail);
    ArrayRoundTrip(arr, depth + 1, hashTail);
    HashRoundTrip(hash, n, depth + 1, rest);
    Regroup(hd, a, h, [Tag(TYPE_NIL, 0)], rest);
    TableDecodes(hd, a + hashTail, hashTail, n, NormalizeArray(arr), NormalizeHash(hash, n), rest);
  }

  lemma {:induction false} ArrayRoundTrip(arr: seq<Value>, depth: nat, rest: seq<byte>)
    requires |arr| < TWO_31 && ValidArray(arr) && EncodeArray(arr, |arr|, depth).Success?
    ensures DecodeArray(EncodeArray(arr, |arr|, depth).value + rest, |arr|)
         == Success((NormalizeArray(arr), rest))
    decreases arr
  {
    if |arr| > 0 {
      var x := EncodeValue(arr[0], depth).value;
      var xs := EncodeArray(arr[1..], |arr| - 1, depth).value;
      assert EncodeArray(arr, |arr|, depth).value + rest == x + (xs + rest);
      ValueRoundTrip(arr[0], depth, xs + rest);
      ArrayRoundTrip(arr[1..], depth, rest);
    }
  }

  lemma {:induction false} EntryRoundTrip(e: Entry, depth: nat, rest: seq<byte>)
    requires ValidEntry(e) && EncodeEntry(e, depth).Success?
    ensures DecodeValue(EncodeEntry(e, depth).value + rest)
         == Success((Normalize(e.key), EncodeValue(e.val, depth).value + rest))
    ensures DecodeValue(EncodeValue(e.val, depth).value + rest) == Success((Normalize(e.val), rest))
    decreases e
  {
    var k := EncodeValue(e.key, depth).value;
    var v := EncodeValue(e.val, depth).value;
    assert EncodeEntry(e, depth).value + rest == k + (v + rest);
    ValueRoundTrip(e.key, depth, v + rest);
    ValueRoundTrip(e.val, depth, rest);
  }

  /** The pair list followed by the closing nil decodes to the pairs the sender did not skip. */
  lemma {:induction false} HashRoundTrip(hash: seq<Entry>, n: int32, depth: nat, rest: seq<byte>)
    requires ValidHash(hash) && EncodeHash(hash, n, depth).Success?
    ensures DecodeHash(EncodeHash(hash, n, depth).value + [Tag(TYPE_NIL, 0)] + rest)
         == Success((NormalizeHash(hash, n), rest))
    decreases hash
  {
    var s := EncodeHash(hash, n, depth).value + [Tag(TYPE_NIL, 0)] + rest;
    if |hash| == 0 {
      assert s == [Tag(TYPE_NIL, 0)] + rest;
      assert s[1..] == rest;
      assert DecodeValue(s) == Success((Nil, rest));
    } else if Skipped(hash[0].key, n) {
      HashRoundTrip(hash[1..], n, depth, rest);
    } else {
      var ee := EncodeEntry(hash[0], depth).value;
      var more := EncodeHash(hash[1..], n, depth).value + [Tag(TYPE_NIL, 0)] + rest;
      assert s == ee + more;
      EntryRoundTrip(hash[0], depth, more);
      HashRoundTrip(hash[1..], n, depth, rest);
    }
  }

  // ---------------------------------------------------------------------------
  // Whole messages

  predicate ValidAll(vs: seq<Value>)
  {
    forall i :: 0 <= i < |vs| ==> Valid(vs[i])
  }

  lemma {:induction false} AllRoundTrip(vs: seq<Value>)
    requires ValidAll(vs) && EncodeAll(vs).Success?
    ensures DecodeAll(EncodeAll(vs).value) == Success(NormalizeArray(vs))
  {
    if |vs| > 0 {
      var x := EncodeValue(vs[0], 0).value;
      var more := EncodeAll(vs[1..]).value;
      assert EncodeAll(vs).value == x + more;
      ValueRoundTrip(vs[0], 0, more);
      assert ValidAll(vs[1..]) by {
        forall i | 0 <= i < |vs[1..]| ensures Valid(vs[1..][i]) {
          assert vs[1..][i] == vs[i + 1];
        }
      }
      AllRoundTrip(vs[1..]);
    }
  }

  lemma FlattenHeader(bs: seq<seq<byte>>)
    requires |bs| >= 1 && |bs[0]| >= 4
    ensures Flatten(bs)[..4] == bs[0][..4]
  {
  }

  /**
   * What `data_pack` produces, `data_unpack` reads back: the same number of
   * values, each normalised, provided the total length fits the `int` header.
   */
  lemma MessageRoundTrip(vs: seq<Value>)
    requires ValidAll(vs) && DataPack(vs).Success?
    requires 4 + |EncodeAll(vs).value| < TWO_31
    ensures var bs := DataPack(vs).value;
      ReadI32(bs[0][..4]) <= |Flatten(bs)| && DataUnpack(bs) == Success(NormalizeArray(vs))
  {
    var bs := DataPack(vs).value;
    var enc := EncodeAll(vs).value;
    FlattenHeader(bs);
    assert bs[0][..4] == I32LE(4 + |enc|);
    ReadI32OfI32(4 + |enc|);
    var rb := RbInit(bs);
    assert Stream(rb) == enc;
    assert Avail(rb) == enc;
    AllRoundTrip(vs);
  }

  // ---------------------------------------------------------------------------
  // Nesting depth

  /** `k` tables, each holding the next as its only array element, around `x`. */
  function Nest(k: nat, x: Value): Value
  {
    if k == 0 then x else Table([Nest(k - 1, x)], [])
  }

  /** What a packing attempt reports: nothing on success, otherwise its error. */
  function Verdict(r: Result<seq<byte>, Error>): Option<Error>
  {
    if r.Success? then None else Some(r.error)
  }

  /** A table holding one element succeeds or fails as its element does, one level deeper. */
  lemma SingletonTable(inner: Value, depth: nat)
    requires depth <= MAX_DEPTH
    ensures Verdict(EncodeValue(Table([inner], []), depth)) == Verdict(EncodeValue(inner, depth + 1))
  {
    assert Wrap32(|[inner]|) == 1;
    assert [inner][1..] == [];
    assert EncodeArray([inner], 1, depth + 1) == (
      match EncodeValue(inner, depth + 1)
      case Failure(e) => Failure(e)
      case Success(b) => Success(b + []));
  }

  /**
   * Wrapping a value in `k` tables behaves exactly as packing the value itself
   * `k` levels deeper: the outcome, and the error when there is one.
   */
  lemma {:induction false} NestDepth(k: nat, x: Value, depth: nat)
    ensures Verdict(EncodeValue(Nest(k, x), depth)) == Verdict(EncodeValue(x, depth + k))
  {
    if k == 0 {
      assert Nest(k, x) == x;
    } else if depth <= MAX_DEPTH {
      NestDepth(k - 1, x, depth + 1);
      NestStep(k, x, depth);
    } else {
      NestTooDeep(k, x, depth);
    }
  }

  /** Past the limit, a nest and its content both fail as too deep. */
  lemma NestTooDeep(k: nat, x: Value, depth: nat)
    requires depth > MAX_DEPTH
    ensures Verdict(EncodeValue(Nest(k, x), depth)) == Verdict(EncodeValue(x, depth + k)) == Some(TooDeep)
  {
  }

  /** One level of `Nest` is one `SingletonTable`. */
  lemma NestStep(k: nat, x: Value, depth: nat)
    requires k > 0 && depth <= MAX_DEPTH
    ensures Verdict(EncodeValue(Nest(k, x), depth)) == Verdict(EncodeValue(Nest(k - 1, x), depth + 1))
    ensures depth + 1 + (k - 1) == depth + k
  {
    assert Nest(k, x) == Table([Nest(k - 1, x)], []);
    SingletonTable(Nest(k - 1, x), depth);
  }

  /** Thirty-two nested tables pack; a thirty-third raises "can't pack too depth table". */
  lemma DepthLimit()
    ensures EncodeValue(Nest(MAX_DEPTH, Nil), 0).Success?
    ensures EncodeValue(Nest(MAX_DEPTH + 1, Nil), 0) == Failure(TooDeep)
    ensures EncodeValue(Nest(MAX_DEPTH, Table([], [])), 0).Success?
  {
    NestDepth(MAX_DEPTH, Nil, 0);
    assert EncodeValue(Nil, MAX_DEPTH).Success?;
    NestDepth(MAX_DEPTH + 1, Nil, 0);
    assert EncodeValue(Nil, MAX_DEPTH + 1) == Failure(TooDeep);
    NestDepth(MAX_DEPTH, Table([], []), 0);
    assert EncodeArray([], 0, MAX_DEPTH + 1) == Success([]);
    assert EncodeValue(Table([], []), MAX_DEPTH).Success?;
  }
}

=== FILE: common.dfy ===
/**
 * Shared vocabulary of the hive model: failure-compatible wrappers, bytes,
 * and the little-endian integer layouts the runtime copies with `memcpy`.
 */
module Common {

  /** Conventional Some/None, standing in for a pointer that may be NULL. */
  datatype Option<+T> = None | Some(value: T)

  /** Success/Failure, standing in for a C path that may raise a Lua error. */
  datatype Result<+R, +E> = Success(value: R) | Failure(error: E) {
    predicate IsFailure() {
      Failure?
    }

    function PropagateFailure<U>(): Result<U, E>
      requires Failure?
    {
      Failure(error)
    }

    function Extract(): R
      requires Success?
    {
      value
    }
  }

  type byte = x: int | 0 <= x < 0x100

  const TWO_31: int := 0x8000_0000
  const TWO_32: int := 0x1_0000_0000

  /** A C `int` / `int32_t`. */
  type int32 = x: int | -TWO_31 <= x < TWO_31

  /** A C `uint32_t`. */
  type uint32 = x: int | 0 <= x < TWO_32

  /** The `int32_t` a two's-complement machine keeps of an unbounded integer. */
  function Wrap32(x: int): (r: int32)
    ensures (x - r) % TWO_32 == 0
    ensures -TWO_31 <= x < TWO_31 ==> r == x
  {
    var u := x % TWO_32;
    if u < TWO_31 then u else u - TWO_32
  }

  function Pow256(k: nat): (r: nat)
    ensures r > 0
  {
    if k == 0 then 1 else 256 * Pow256(k - 1)
  }

  /** The `k` bytes of `n` (modulo 256^k), least significant first. */
  function LE(n: nat, k: nat): (r: seq<byte>)
    ensures |r| == k
  {
    if k == 0 then [] else [n % 256] + LE(n / 256, k - 1)
  }

  /** The unsigned value of little-endian bytes. */
  function FromLE(s: seq<byte>): (r: nat)
    ensures r < Pow256(|s|)
  {
    if |s| == 0 then 0 else s[0] + 256 * FromLE(s[1..])
  }

  lemma {:induction false} FromLEOfLE(n: nat, k: nat)
    requires n < Pow256(k)
    ensures FromLE(LE(n, k)) == n
  {
    if k > 0 {
      FromLEOfLE(n / 256, k - 1);
      assert LE(n, k)[1..] == LE(n / 256, k - 1);
    }
  }

  /** The four bytes `memcpy` takes from an `int`, two's complement. */
  function I32LE(v: int32): (r: seq<byte>)
    ensures |r| == 4
  {
    LE(if v < 0 then v + TWO_32 else v, 4)
  }

  /** The `int` whose four bytes are `s`. */
  function ReadI32(s: seq<byte>): (r: int32)
    requires |s| == 4
  {
    assert Pow256(4) == TWO_32;
    var u := FromLE(s);
    if u < TWO_31 then u else u - TWO_32
  }

  lemma ReadI32OfI32(v: int32)
    ensures ReadI32(I32LE(v)) == v
  {
    assert Pow256(4) == TWO_32;
    FromLEOfLE(if v < 0 then v + TWO_32 else v, 4);
  }
}

=== FILE: mailbox.dfy ===
/**
 * The mailbox of a cell (`struct message_queue` in `hive_cell.c`): a circular
 * array of messages that doubles its capacity when a push fills it.
 *
 * The ring is `cap` slots with a read index `head` and a write index `tail`;
 * `head == tail` means empty, so a ring never stays full: the push that makes
 * `tail` catch up with `head` immediately reallocates.
 */
module Mailbox {
  import opened Common

  const DEFAULT_QUEUE: int := 64

  /** The block a message carries: an opaque pointer, `None` for NULL. */
  type Payload = Option<nat>

  datatype Message = Message(port: int32, buffer: Payload)

  /** What an allocated but never written slot holds; no contract depends on it. */
  const Unwritten: Message := Message(0, None)

  datatype MQ = MQ(cap: int, head: int, tail: int, queue: seq<Message>)

  ghost predicate MqValid(mq: MQ)
  {
    mq.cap >= DEFAULT_QUEUE && |mq.queue| == mq.cap
    && 0 <= mq.head < mq.cap && 0 <= mq.tail < mq.cap
  }

  /** The number of queued messages, `(tail - head) mod cap`. */
  function Count(mq: MQ): (n: int)
    requires MqValid(mq)
    ensures 0 <= n < mq.cap
  {
    if mq.tail >= mq.head then mq.tail - mq.head else mq.tail - mq.head + mq.cap
  }

  /** The slot of the `i`-th oldest message, `(head + i) % cap`. */
  function Slot(mq: MQ, i: int): (k: int)
    requires MqValid(mq) && 0 <= i < mq.cap
    ensures 0 <= k < mq.cap
    ensures k == (mq.head + i) % mq.cap
  {
    if mq.head + i < mq.cap then mq.head + i else mq.head + i - mq.cap
  }

  /** The queued messages, oldest first. */
  function Contents(mq: MQ): (ms: seq<Message>)
    requires MqValid(mq)
    ensures |ms| == Count(mq)
  {
    seq(Count(mq), i requires 0 <= i < Count(mq) => mq.queue[Slot(mq, i)])
  }

  /** `mq_init`: an empty ring of `DEFAULT_QUEUE` slots. */
  function MqInit(): (mq: MQ)
    ensures MqValid(mq) && mq.cap == DEFAULT_QUEUE && mq.head == mq.tail
    ensures Contents(mq) == []
  {
    MQ(DEFAULT_QUEUE, 0, 0, seq(DEFAULT_QUEUE, _ => Unwritten))
  }

  /**
   * The reallocation of `mq_push`: `cap` messages copied in order from `head`
   * into a ring twice as large, then `head = 0` and `tail = cap`.
   */
  function Grow(mq: MQ): (r: MQ)
    requires MqValid(mq)
    ensures MqValid(r) && r.cap == 2 * mq.cap && r.head == 0 && r.tail == mq.cap
    ensures forall i :: 0 <= i < mq.cap ==> r.queue[i] == mq.queue[Slot(mq, i)]
  {
    MQ(2 * mq.cap, 0, mq.cap,
       seq(2 * mq.cap, i requires 0 <= i < 2 * mq.cap =>
         if i < mq.cap then mq.queue[(mq.head + i) % mq.cap] else Unwritten))
  }

  /** The message `Count` places after the last one is the slot `tail`. */
  lemma SlotOfTail(mq: MQ)
    requires MqValid(mq)
    ensures Slot(mq, Count(mq)) == mq.tail
    ensures forall i :: 0 <= i < Count(mq) ==> Slot(mq, i) != mq.tail
  {
  }

  /** The first half of `mq_push`: store at `tail`, advance `tail` with wrap-around. */
  function Store(mq: MQ, m: Message): (r: MQ)
    requires MqValid(mq)
    ensures MqValid(r) && r.cap == mq.cap && r.head == mq.head
  {
    MQ(mq.cap, mq.head, if mq.tail + 1 >= mq.cap then 0 else mq.tail + 1, mq.queue[mq.tail := m])
  }

  lemma StoreContents(mq: MQ, m: Message)
    requires MqValid(mq) && Count(mq) + 1 < mq.cap
    ensures Store(mq, m).head != Store(mq, m).tail
    ensures Contents(Store(mq, m)) == Contents(mq) + [m]
  {
    var r := Store(mq, m);
    SlotOfTail(mq);
    assert Count(r) == Count(mq) + 1;
    forall i | 0 <= i < Count(r) ensures Contents(r)[i] == (Contents(mq) + [m])[i] {
      assert Slot(r, i) == Slot(mq, i);
    }
  }

  lemma GrowContents(mq: MQ, m: Message)
    requires MqValid(mq) && Count(mq) + 1 == mq.cap
    ensures Store(mq, m).head == Store(mq, m).tail
    ensures Contents(Grow(Store(mq, m))) == Contents(mq) + [m]
  {
    var st := Store(mq, m);
    var r := Grow(st);
    SlotOfTail(mq);
    forall i | 0 <= i < mq.cap ensures Contents(r)[i] == (Contents(mq) + [m])[i] {
      assert Slot(st, i) == Slot(mq, i);
    }
  }

  /**
   * `mq_push`: the message goes at `tail`; when the advanced tail meets
   * `head` the ring is full and grows. Nothing is lost or reordered.
   */
  function MqPush(mq: MQ, m: Message): (r: MQ)
    requires MqValid(mq)
    ensures MqValid(r)
    ensures Contents(r) == Contents(mq) + [m]
    ensures r.cap == if Count(mq) + 1 == mq.cap then 2 * mq.cap else mq.cap
  {
    var st := Store(mq, m);
    if st.head == st.tail then
      assert Count(mq) + 1 == mq.cap by {
        if Count(mq) + 1 < mq.cap {
          StoreContents(mq, m);
        }
      }
      GrowContents(mq, m);
      Grow(st)
    else
      assert Count(mq) + 1 < mq.cap by {
        if Count(mq) + 1 == mq.cap {
          GrowContents(mq, m);
        }
      }
      StoreContents(mq, m);
      st
  }

  /**
   * `mq_pop`: `None` (the C function's return value 1) on an empty ring, which
   * is left as it was; otherwise the oldest message and the ring without it.
   */
  function MqPop(mq: MQ): (r: (Option<Message>, MQ))
    requires MqValid(mq)
    ensures MqValid(r.1) && r.1.cap == mq.cap
    ensures Contents(mq) == [] ==> r == (None, mq)
    ensures Contents(mq) != [] ==> r.0 == Some(Contents(mq)[0]) && Contents(r.1) == Contents(mq)[1..]
  {
    if mq.head == mq.tail then (None, mq)
    else
      var head' := if mq.head + 1 >= mq.cap then 0 else mq.head + 1;
      var r := mq.(head := head');
      assert Count(r) == Count(mq) - 1;
      assert Contents(r) == Contents(mq)[1..] by {
        forall i | 0 <= i < Count(r) ensures Contents(r)[i] == Contents(mq)[i + 1] {
        }
      }
      (Some(mq.queue[mq.head]), r)
  }

  // ---------------------------------------------------------------------------
  // FIFO order over whole sequences of operations

  function PushAll(mq: MQ, ms: seq<Message>): (r: MQ)
    requires MqValid(mq)
    ensures MqValid(r) && Contents(r) == Contents(mq) + ms
    decreases ms
  {
    if |ms| == 0 then mq
    else
      var r := PushAll(MqPush(mq, ms[0]), ms[1..]);
      assert Contents(mq) + [ms[0]] + ms[1..] == Contents(mq) + ms;
      r
  }

  /**
   * Pops until `mq_pop` reports empty, collecting what it returns: exactly
   * the contents, oldest first, leaving the mailbox empty.
   */
  function PopAll(mq: MQ): (r: (seq<Message>, MQ))
    requires MqValid(mq)
    ensures MqValid(r.1) && Contents(r.1) == []
    ensures r.0 == Contents(mq)
    decreases Count(mq)
  {
    var (m, mq') := MqPop(mq);
    if m.None? then ([], mq)
    else
      var (ms, last) := PopAll(mq');
      assert [m.value] + Contents(mq') == Contents(mq);
      ([m.value] + ms, last)
  }

  /**
   * The mailbox is first in, first out: whatever was queued, pushing `ms` and
   * draining yields the old contents followed by `ms`, however often the ring
   * grew on the way.
   */
  lemma Fifo(mq: MQ, ms: seq<Message>)
    requires MqValid(mq)
    ensures PopAll(PushAll(mq, ms)).0 == Contents(mq) + ms
  {
  }
}

=== FILE: scheduler.dfy ===
/**
 * The ready queue and the timer of `hive_scheduler.c`, run one step at a time.
 *
 * The global queue is a ring of `MAX_GLOBAL_MQ` cell slots, each with a flag
 * saying its slot has been published. `head` and `tail` are `uint32_t`
 * counters that only ever increase (modulo 2^32); a slot is a counter taken
 * modulo the ring size, which divides 2^32, so the wrap of the counters never
 * disturbs the slots. The atomics that make the ring safe for several worker
 * threads are not modelled.
 */
module Scheduler {
  import opened Common
  import opened Mailbox
  import opened Cells

  const MAX_GLOBAL_MQ: int := 0x10000

  /** The identity of a cell: its address. */
  type CellId = nat

  /** `GP`: the slot of a counter. */
  function GP(p: int): (slot: int)
    ensures 0 <= slot < MAX_GLOBAL_MQ
  {
    p % MAX_GLOBAL_MQ
  }

  datatype GlobalQueue = GlobalQueue(
    head: uint32, tail: uint32, total: int, thread: int,
    queue: seq<Option<CellId>>, flag: seq<bool>)

  ghost predicate Shape(q: GlobalQueue)
  {
    |q.queue| == MAX_GLOBAL_MQ && |q.flag| == MAX_GLOBAL_MQ
  }

  /** The number of queued cells: `tail - head` in `uint32_t` arithmetic. */
  function Pending(q: GlobalQueue): (n: int)
    ensures 0 <= n < TWO_32
  {
    if q.tail >= q.head then q.tail - q.head else q.tail - q.head + TWO_32
  }

  /** The slot of the `i`-th oldest queued cell. */
  function Slot(q: GlobalQueue, i: int): (slot: int)
    ensures 0 <= slot < MAX_GLOBAL_MQ
  {
    GP(q.head + i)
  }

  /**
   * The sequential invariant of the ring: fewer cells than slots are queued,
   * the published flags mark exactly the slots between head and tail, and
   * each of those holds a cell.
   */
  ghost predicate QValid(q: GlobalQueue)
  {
    Shape(q) && Pending(q) < MAX_GLOBAL_MQ
    && (forall i :: 0 <= i < MAX_GLOBAL_MQ ==> (q.flag[Slot(q, i)] <==> i < Pending(q)))
    && (forall i :: 0 <= i < Pending(q) ==> q.queue[Slot(q, i)].Some?)
  }

  /** The queued cells, oldest first. */
  function Queued(q: GlobalQueue): (cs: seq<CellId>)
    requires QValid(q)
    ensures |cs| == Pending(q)
  {
    seq(Pending(q), i requires 0 <= i < Pending(q) => q.queue[Slot(q, i)].value)
  }

  /** Distinct offsets less than a ring's length apart name distinct slots. */
  lemma SlotsDistinct(q: GlobalQueue, i: int, j: int)
    requires 0 <= i < MAX_GLOBAL_MQ && 0 <= j < MAX_GLOBAL_MQ && i != j
    ensures Slot(q, i) != Slot(q, j)
  {
  }

  /** The tail counter names the slot just past the queued cells, across the 2^32 wrap too. */
  lemma TailSlot(q: GlobalQueue)
    ensures GP(q.tail) == Slot(q, Pending(q))
  {
    if q.tail < q.head {
      var x := q.head + Pending(q);
      assert q.tail == x - MAX_GLOBAL_MQ * MAX_GLOBAL_MQ;
    }
  }

  /** After head advances by one (wrapping at 2^32), offset `i` names the old offset `i + 1`. */
  lemma AdvancedSlot(q: GlobalQueue, r: GlobalQueue, i: int)
    requires r.head == (q.head + 1) % TWO_32
    ensures Slot(r, i) == Slot(q, i + 1)
  {
    if q.head + 1 == TWO_32 {
      assert q.head + (i + 1) == r.head + i + MAX_GLOBAL_MQ * MAX_GLOBAL_MQ;
    }
  }

  /** `globalmq_init`: everything zero, so nothing is queued. */
  function GlobalInit(thread: int): (q: GlobalQueue)
    ensures QValid(q) && Queued(q) == [] && q.total == 0 && q.thread == thread
  {
    GlobalQueue(0, 0, 0, thread, seq(MAX_GLOBAL_MQ, _ => None), seq(MAX_GLOBAL_MQ, _ => false))
  }

  /**
   * `globalmq_push`: the cell goes into the slot of the old tail, that slot is
   * published, and tail advances by one. Unless the ring was already full,
   * the cell joins the end of the queue.
   */
  function GlobalPush(q: GlobalQueue, c: CellId): (r: GlobalQueue)
    requires Shape(q)
    ensures Shape(r) && r.head == q.head && r.total == q.total
    ensures r.tail == (q.tail + 1) % TWO_32
    ensures r.queue[GP(q.tail)] == Some(c) && r.flag[GP(q.tail)]
    ensures QValid(q) && Pending(q) + 1 < MAX_GLOBAL_MQ ==>
      QValid(r) && Queued(r) == Queued(q) + [c]
  {
    var slot := GP(q.tail);
    var r := q.(tail := (q.tail + 1) % TWO_32,
                queue := q.queue[slot := Some(c)],
                flag := q.flag[slot := true]);
    assert QValid(q) && Pending(q) + 1 < MAX_GLOBAL_MQ ==> QValid(r) && Queued(r) == Queued(q) + [c] by {
      if QValid(q) && Pending(q) + 1 < MAX_GLOBAL_MQ {
        PushKeepsValid(q, c, r);
      }
    }
    r
  }

  /** The slot of offset `i` after a push, compared with before it. */
  lemma PushSlot(q: GlobalQueue, c: CellId, r: GlobalQueue, i: int)
    requires QValid(q) && Pending(q) + 1 < MAX_GLOBAL_MQ && 0 <= i < MAX_GLOBAL_MQ
    requires r == q.(tail := (q.tail + 1) % TWO_32,
                     queue := q.queue[GP(q.tail) := Some(c)],
                     flag := q.flag[GP(q.tail) := true])
    ensures r.flag[Slot(r, i)] == (q.flag[Slot(q, i)] || i == Pending(q))
    ensures i != Pending(q) ==> r.queue[Slot(r, i)] == q.queue[Slot(q, i)]
    ensures i == Pending(q) ==> r.queue[Slot(r, i)] == Some(c)
  {
    TailSlot(q);
    assert Slot(r, i) == Slot(q, i);
    if i != Pending(q) {
      SlotsDistinct(q, i, Pending(q));
    }
  }

  lemma PushKeepsValid(q: GlobalQueue, c: CellId, r: GlobalQueue)
    requires QValid(q) && Pending(q) + 1 < MAX_GLOBAL_MQ
    requires r == q.(tail := (q.tail + 1) % TWO_32,
                     queue := q.queue[GP(q.tail) := Some(c)],
                     flag := q.flag[GP(q.tail) := true])
    ensures QValid(r) && Queued(r) == Queued(q) + [c]
  {
    var n := Pending(q);
    assert Pending(r) == n + 1;
    forall i | 0 <= i < MAX_GLOBAL_MQ
      ensures r.flag[Slot(r, i)] == (q.flag[Slot(q, i)] || i == n)
      ensures i != n ==> r.queue[Slot(r, i)] == q.queue[Slot(q, i)]
      ensures i == n ==> r.queue[Slot(r, i)] == Some(c)
    {
      PushSlot(q, c, r, i);
    }
    assert Queued(r) == Queued(q) + [c] by {
      forall i | 0 <= i < n + 1 ensures Queued(r)[i] == (Queued(q) + [c])[i] {
      }
    }
  }

  /**
   * `globalmq_pop`: nothing (NULL) when the head slot is the tail slot or is
   * not yet published; otherwise the head cell, with its flag cleared and
   * head advanced. Run alone, this takes the oldest queued cell.
   */
  function GlobalPop(q: GlobalQueue): (r: (Option<CellId>, GlobalQueue))
    requires Shape(q)
    ensures Shape(r.1)
    ensures GP(q.head) == GP(q.tail) || !q.flag[GP(q.head)] ==> r == (None, q)
    ensures QValid(q) && Queued(q) == [] ==> r == (None, q)
    ensures QValid(q) && Queued(q) != [] ==>
      r.0 == Some(Queued(q)[0]) && QValid(r.1) && Queued(r.1) == Queued(q)[1..]
      && r.1.total == q.total
  {
    var slot := GP(q.head);
    if slot == GP(q.tail) || !q.flag[slot] then
      assert QValid(q) ==> Pending(q) == 0 by {
        if QValid(q) && Pending(q) > 0 {
          assert slot == Slot(q, 0);
          SlotsDistinct(q, 0, Pending(q));
          TailSlot(q);
        }
      }
      (None, q)
    else
      var r := q.(head := (q.head + 1) % TWO_32, flag := q.flag[slot := false]);
      assert QValid(q) ==> Queued(q) != [] && q.queue[slot] == Some(Queued(q)[0])
                           && QValid(r) && Queued(r) == Queued(q)[1..] by {
        if QValid(q) {
          PopKeepsValid(q, r);
        }
      }
      (q.queue[slot], r)
  }

  /** The slot of offset `i` after a pop, compared with offset `i + 1` before it. */
  lemma PopSlot(q: GlobalQueue, r: GlobalQueue, i: int)
    requires QValid(q) && Pending(q) >= 1 && 0 <= i < MAX_GLOBAL_MQ
    requires r == q.(head := (q.head + 1) % TWO_32, flag := q.flag[GP(q.head) := false])
    ensures r.flag[Slot(r, i)] <==> i < Pending(q) - 1
    ensures i < Pending(q) - 1 ==> r.queue[Slot(r, i)] == q.queue[Slot(q, i + 1)]
  {
    assert GP(q.head) == Slot(q, 0);
    AdvancedSlot(q, r, i);
    if i + 1 < MAX_GLOBAL_MQ {
      SlotsDistinct(q, 0, i + 1);
    } else {
      assert Slot(q, i + 1) == Slot(q, 0);
    }
  }

  lemma PopKeepsValid(q: GlobalQueue, r: GlobalQueue)
    requires QValid(q) && q.flag[GP(q.head)]
    requires r == q.(head := (q.head + 1) % TWO_32, flag := q.flag[GP(q.head) := false])
    ensures Queued(q) != [] && q.queue[GP(q.head)] == Some(Queued(q)[0])
    ensures QValid(r) && Queued(r) == Queued(q)[1..]
  {
    var n := Pending(q);
    assert GP(q.head) == Slot(q, 0);
    assert n >= 1;
    assert Pending(r) == n - 1;
    forall i | 0 <= i < MAX_GLOBAL_MQ
      ensures r.flag[Slot(r, i)] <==> i < n - 1
      ensures i < n - 1 ==> r.queue[Slot(r, i)] == q.queue[Slot(q, i + 1)]
    {
      PopSlot(q, r, i);
    }
    assert Queued(r) == Queued(q)[1..] by {
      forall i | 0 <= i < n - 1 ensures Queued(r)[i] == Queued(q)[i + 1] {
      }
    }
  }

  /** `globalmq_inc`: one more live cell. */
  function GlobalInc(q: GlobalQueue): (r: GlobalQueue)
    ensures r.total == q.total + 1 && r.(total := q.total) == q
    ensures QValid(q) ==> QValid(r) && Queued(r) == Queued(q)
  {
    var r := q.(total := q.total + 1);
    assert forall i :: Slot(r, i) == Slot(q, i);
    r
  }

  /** `globalmq_dec`: one live cell fewer. */
  function GlobalDec(q: GlobalQueue): (r: GlobalQueue)
    ensures r.total == q.total - 1 && r.(total := q.total) == q
    ensures QValid(q) ==> QValid(r) && Queued(r) == Queued(q)
  {
    var r := q.(total := q.total - 1);
    assert forall i :: Slot(r, i) == Slot(q, i);
    r
  }

  lemma IncDec(q: GlobalQueue)
    ensures GlobalDec(GlobalInc(q)) == q && GlobalInc(GlobalDec(q)) == q
  {
  }

  // ---------------------------------------------------------------------------
  // One scheduling step

  /**
   * What `_message_dispatch` returns: 1 when no cell was ready or the cell
   * was retired, otherwise the cell's own `CELL_EMPTY` or `CELL_MESSAGE`.
   */
  datatype StepResult = ReturnedOne | Returned(outcome: Outcome)

  /**
   * The world the scheduler runs in: every queued cell is known and queued
   * once, and every known cell is well formed, holds a reference while a
   * behaviour is attached (its own proxy), and is destroyable once marked quit.
   */
  ghost predicate WorldValid(q: GlobalQueue, cells: map<CellId, Cell>)
  {
    QValid(q)
    && (forall i :: 0 <= i < |Queued(q)| ==> Queued(q)[i] in cells)
    && (forall i, j :: 0 <= i < j < |Queued(q)| ==> Queued(q)[i] != Queued(q)[j])
    && (forall c :: c in cells ==> CellOk(cells[c]))
  }

  ghost predicate CellOk(c: Cell)
  {
    CellValid(c) && (c.host.Some? ==> c.ref >= 1) && (c.quit ==> CanDestroy(c))
  }

  /** `cell_dispatch_message` seen from the scheduler: only a quit cell is destroyed, others stay valid. */
  method Visit(c: Cell) returns (outcome: Outcome, after: Option<Cell>, delivered: seq<Message>)
    requires CellOk(c)
    ensures outcome == CellQuit <==> c.quit
    ensures c.quit ==> delivered == []
    ensures !c.quit ==> after.Some? && CellOk(after.value)
    ensures Dispatched(c, outcome, after, delivered)
  {
    outcome, after, delivered := CellDispatch(c);
  }

  lemma Retire(q: GlobalQueue, cells: map<CellId, Cell>, q1: GlobalQueue)
    requires WorldValid(q, cells) && Queued(q) != []
    requires QValid(q1) && Queued(q1) == Queued(q)[1..]
    ensures WorldValid(GlobalDec(q1), cells - {Queued(q)[0]})
  {
    var queued := Queued(q);
    var rest := cells - {queued[0]};
    assert forall c :: c in rest ==> CellOk(rest[c]);
    forall i | 0 <= i < |Queued(q1)| ensures Queued(q1)[i] in rest {
      assert Queued(q1)[i] == queued[i + 1];
    }
    forall i, j | 0 <= i < j < |Queued(q1)| ensures Queued(q1)[i] != Queued(q1)[j] {
      assert Queued(q1)[i] == queued[i + 1] && Queued(q1)[j] == queued[j + 1];
    }
  }

  lemma Requeue(q: GlobalQueue, cells: map<CellId, Cell>, q1: GlobalQueue, c: Cell)
    requires WorldValid(q, cells) && Queued(q) != []
    requires QValid(q1) && Queued(q1) == Queued(q)[1..] && q1.total == q.total
    requires CellOk(c)
    ensures var id := Queued(q)[0];
      WorldValid(GlobalPush(q1, id), cells[id := c])
      && Queued(GlobalPush(q1, id)) == Queued(q)[1..] + [id] && GlobalPush(q1, id).total == q.total
  {
    var queued := Queued(q);
    var id := queued[0];
    var q2 := GlobalPush(q1, id);
    assert Queued(q2) == queued[1..] + [id];
    forall i | 0 <= i < |Queued(q2)| ensures Queued(q2)[i] in cells[id := c] {
      if i < |queued| - 1 {
        assert Queued(q2)[i] == queued[i + 1];
      }
    }
    forall i, j | 0 <= i < j < |Queued(q2)| ensures Queued(q2)[i] != Queued(q2)[j] {
      assert Queued(q2)[i] == queued[i + 1];
      if j < |queued| - 1 {
        assert Queued(q2)[j] == queued[j + 1];
      }
    }
  }

  /**
   * `_message_dispatch`: pop one cell and let it run one visit. A destroyed
   * cell leaves the queue and the live count; any other cell goes back to
   * the end of the queue. The world stays valid.
   */
  method MessageDispatch(q: GlobalQueue, cells: map<CellId, Cell>)
    returns (result: StepResult, q': GlobalQueue, cells': map<CellId, Cell>, delivered: seq<Message>)
    requires WorldValid(q, cells)
    ensures WorldValid(q', cells')
    ensures Queued(q) == [] ==> result == ReturnedOne && q' == q && cells' == cells && delivered == []
    ensures Queued(q) != [] && cells[Queued(q)[0]].quit ==>
      result == ReturnedOne && Queued(q') == Queued(q)[1..] && q'.total == q.total - 1
      && cells' == cells - {Queued(q)[0]} && delivered == []
    ensures Queued(q) != [] && !cells[Queued(q)[0]].quit ==>
      result.Returned? && result.outcome != CellQuit
      && Queued(q') == Queued(q)[1..] + [Queued(q)[0]] && q'.total == q.total
      && cells'.Keys == cells.Keys
      && (forall c :: c in cells && c != Queued(q)[0] ==> cells'[c] == cells[c])
      && Dispatched(cells[Queued(q)[0]], result.outcome, Some(cells'[Queued(q)[0]]), delivered)
  {
    var (popped, q1) := GlobalPop(q);
    if popped.None? {
      return ReturnedOne, q, cells, [];
    }
    var id := popped.value;
    assert id == Queued(q)[0] && id in cells;
    var outcome, after, msgs := Visit(cells[id]);
    if outcome == CellQuit {
      Retire(q, cells, q1);
      return ReturnedOne, GlobalDec(q1), cells - {id}, msgs;
    }
    Requeue(q, cells, q1, after.value);
    return Returned(outcome), GlobalPush(q1, id), cells[id := after.value], msgs;
  }

  // ---------------------------------------------------------------------------
  // The timer

  /**
   * `_gettime`: the clock in hundredths of a second, from the low 24 bits of
   * the seconds and the microseconds, in `uint32_t` arithmetic.
   */
  function GetTime(sec: int, usec: int): (t: uint32)
    requires 0 <= usec < 1000000
    ensures t < TWO_31
    ensures t / 100 == sec % 0x100_0000 && t % 100 == usec / 10000
  {
    var t := ((sec % 0x100_0000) % TWO_32) * 100 % TWO_32;
    (t + usec / 10000) % TWO_32
  }

  /** The tick messages `send_tick` sends: port 0, no payload. */
  function Ticks(n: nat): (ms: seq<Message>)
    ensures |ms| == n && forall i :: 0 <= i < n ==> ms[i] == Message(0, None)
  {
    seq(n, _ => Message(0, None))
  }

  /**
   * `_updatetime`: when the clock has advanced, the new time is recorded and
   * the system cell is sent one tick per hundredth of a second elapsed. The
   * difference is stored in an `int`, so an advance of 2^31 or more sends
   * nothing.
   */
  method UpdateTime(current: uint32, ct: uint32, sys: Cell)
    returns (current': uint32, sys': Cell, sent: nat)
    requires CellValid(sys)
    ensures CellValid(sys')
    ensures ct <= current ==> current' == current && sys' == sys && sent == 0
    ensures ct > current ==> current' == ct
    ensures ct > current ==> sent == (if ct - current < TWO_31 then ct - current else 0)
    ensures sys.quit || sys.close ==> sys' == sys
    ensures !(sys.quit || sys.close) ==>
      Contents(sys'.mq) == Contents(sys.mq) + Ticks(sent) && sys'.(mq := sys.mq) == sys
  {
    current', sys', sent := current, sys, 0;
    if ct > current {
      var diff := Wrap32(ct - current);
      current' := ct;
      var i := 0;
      while i < diff
        invariant 0 <= i && (diff >= 0 ==> i <= diff) && (diff < 0 ==> i == 0)
        invariant CellValid(sys')
        invariant sys.quit || sys.close ==> sys' == sys
        invariant !(sys.quit || sys.close) ==>
          Contents(sys'.mq) == Contents(sys.mq) + Ticks(i) && sys'.(mq := sys.mq) == sys
      {
        var (_, next) := CellSend(sys', 0, None);
        assert Ticks(i) + [Message(0, None)] == Ticks(i + 1);
        sys' := next;
        i := i + 1;
      }
      sent := if diff < 0 then 0 else diff;
    }
  }

  /** Two readings of `_gettime` are never 2^31 apart, so every advance is ticked in full. */
  lemma TimerTicksInFull(sec0: int, usec0: int, sec1: int, usec1: int)
    requires 0 <= usec0 < 1000000 && 0 <= usec1 < 1000000
    ensures var current, ct := GetTime(sec0, usec0), GetTime(sec1, usec1);
      ct > current ==> ct - current < TWO_31 && Wrap32(ct - current) == ct - current
  {
  }
}

=== FILE: socket_buffer.dfy ===
/**
 * The byte ring buffer the socket library keeps on the Lua side
 * (`struct socket_buffer` in `hive_socket_lib.c`): `size` bytes of storage
 * after a header holding `head` (next byte to read) and `tail` (next byte to
 * write). The buffered count is `tail - head`, plus `size` when negative.
 *
 * `head` may equal `size` after a pop that ends exactly at the end of the
 * storage; the next byte is then at 0. A NULL buffer is `None`.
 */
module SocketBuffer {
  import opened Common

  datatype Buffer = Buffer(size: int, head: int, tail: int, data: seq<byte>)

  ghost predicate BufValid(b: Buffer)
  {
    |b.data| == b.size && 0 <= b.head <= b.size && 0 <= b.tail
    && (b.tail < b.size || b.size == b.tail == b.head == 0)
  }

  /** The buffered byte count, as `lpush`, `lpop` and `lreadline` compute it. */
  function Bytes(b: Buffer): (n: int)
    requires BufValid(b)
    ensures 0 <= n && (n < b.size || n == 0)
  {
    if b.tail - b.head < 0 then b.tail - b.head + b.size else b.tail - b.head
  }

  /** An index one lap past the end of the storage, brought back into it. */
  function Wrapped(size: int, x: int): int
  {
    if x >= size then x - size else x
  }

  /** Where the `i`-th buffered byte lives. */
  function Pos(b: Buffer, i: int): (k: int)
    requires BufValid(b) && 0 <= i < Bytes(b)
    ensures 0 <= k < b.size
  {
    Wrapped(b.size, b.head + i)
  }

  /** The buffered bytes, oldest first. */
  function Contents(b: Buffer): (s: seq<byte>)
    requires BufValid(b)
    ensures |s| == Bytes(b)
  {
    seq(Bytes(b), i requires 0 <= i < Bytes(b) => b.data[Pos(b, i)])
  }

  /** `new_buffer`: `sz` bytes of storage, nothing buffered. */
  function NewBuffer(sz: nat): (b: Buffer)
    ensures BufValid(b) && b.size == sz && b.head == 0 && Contents(b) == []
  {
    Buffer(sz, 0, 0, seq(sz, _ => 0))
  }

  /** `memcpy` of `src` into `data` at `at`. */
  function Write(data: seq<byte>, at: int, src: seq<byte>): (r: seq<byte>)
    requires 0 <= at && at + |src| <= |data|
    ensures |r| == |data|
    ensures forall k :: 0 <= k < |data| ==> r[k] == if at <= k < at + |src| then src[k - at] else data[k]
  {
    data[..at] + src + data[at + |src|..]
  }

  /** The branch of `append_buffer` whose bytes fit before the end of the storage. */
  function AppendInPlace(b: Buffer, msg: seq<byte>): (r: Buffer)
    requires BufValid(b) && Bytes(b) + |msg| < b.size && |msg| + b.tail < b.size
    ensures BufValid(r) && r.size == b.size && r.head == b.head
    ensures Contents(r) == Contents(b) + msg
  {
    var r := b.(data := Write(b.data, b.tail, msg), tail := b.tail + |msg|);
    assert Bytes(r) == Bytes(b) + |msg|;
    forall i | 0 <= i < Bytes(r) ensures Contents(r)[i] == (Contents(b) + msg)[i] {
      if i >= Bytes(b) {
        assert Pos(r, i) == b.tail + (i - Bytes(b));
      } else {
        assert Pos(r, i) == Pos(b, i);
      }
    }
    r
  }

  /** The branch of `append_buffer` whose bytes run past the end of the storage and go on at 0. */
  function AppendWrapping(b: Buffer, msg: seq<byte>): (r: Buffer)
    requires BufValid(b) && (Bytes(b) + |msg| < b.size || |msg| == 0) && |msg| + b.tail >= b.size
    ensures BufValid(r) && r.size == b.size && r.head == b.head
    ensures Contents(r) == Contents(b) + msg
  {
    var part := b.size - b.tail;
    var r := b.(data := Write(Write(b.data, b.tail, msg[..part]), 0, msg[part..]), tail := |msg| - part);
    assert Bytes(r) == Bytes(b) + |msg|;
    forall i | 0 <= i < Bytes(r) ensures Contents(r)[i] == (Contents(b) + msg)[i] {
      if i >= Bytes(b) {
        var j := i - Bytes(b);
        assert Pos(r, i) == if j < part then b.tail + j else j - part;
      } else {
        assert Pos(r, i) == Pos(b, i);
      }
    }
    r
  }

  /**
   * `append_buffer`: writes after `tail`, wrapping to the start of the
   * storage when the bytes do not fit before its end. Callers leave room:
   * the bytes must not reach `head`.
   */
  function AppendBuffer(b: Buffer, msg: seq<byte>): (r: Buffer)
    requires BufValid(b) && (Bytes(b) + |msg| < b.size || |msg| == 0)
    ensures BufValid(r) && r.size == b.size && r.head == b.head
    ensures Contents(r) == Contents(b) + msg
  {
    if |msg| + b.tail < b.size then AppendInPlace(b, msg) else AppendWrapping(b, msg)
  }

  /**
   * `copy_buffer`: the buffered bytes of `src` laid out from index 0 of a
   * fresh `dest`, whose tail becomes the byte count.
   */
  function CopyBuffer(dest: Buffer, src: Buffer): (r: Buffer)
    requires BufValid(dest) && dest.head == 0 && BufValid(src)
    requires Bytes(src) < dest.size || Bytes(src) == 0
    ensures BufValid(r) && r.size == dest.size && r.head == 0 && r.tail == Bytes(src)
    ensures Contents(r) == Contents(src)
  {
    if src.tail >= src.head then
      var sz := src.tail - src.head;
      var r := dest.(data := Write(dest.data, 0, src.data[src.head..src.tail]), tail := sz);
      assert Contents(r) == Contents(src) by {
        forall i | 0 <= i < sz ensures Contents(r)[i] == Contents(src)[i] {
          assert Pos(src, i) == src.head + i;
        }
      }
      r
    else
      var part := src.size - src.head;
      var d := Write(Write(dest.data, 0, src.data[src.head..]), part, src.data[..src.tail]);
      var r := dest.(data := d, tail := src.tail + part);
      assert Contents(r) == Contents(src) by {
        forall i | 0 <= i < Bytes(src) ensures Contents(r)[i] == Contents(src)[i] {
          assert Pos(src, i) == if i < part then src.head + i else i - part;
        }
      }
      r
  }

  function CountOf(buffer: Option<Buffer>): (n: int)
    requires buffer.Some? ==> BufValid(buffer.value)
  {
    if buffer.None? then 0 else Bytes(buffer.value)
  }

  function ContentsOf(buffer: Option<Buffer>): (s: seq<byte>)
    requires buffer.Some? ==> BufValid(buffer.value)
    ensures |s| == CountOf(buffer)
  {
    if buffer.None? then [] else Contents(buffer.value)
  }

  /**
   * `lpush`: appends `msg` and returns the buffer now holding the bytes with
   * the new byte count. Without a message it returns what it was given. A
   * missing buffer is created at twice the message size; one too small for
   * the total is replaced by a copy twice the total's size; otherwise the
   * bytes go into the buffer in place.
   */
  function LPush(buffer: Option<Buffer>, msg: Option<seq<byte>>): (r: (Option<Buffer>, int))
    requires buffer.Some? ==> BufValid(buffer.value)
    ensures msg.None? ==> r == (buffer, CountOf(buffer))
    ensures msg.Some? ==>
      r.0.Some? && BufValid(r.0.value) && Contents(r.0.value) == ContentsOf(buffer) + msg.value
      && r.1 == CountOf(buffer) + |msg.value|
    ensures msg.Some? && buffer.None? ==> r.0.value.size == 2 * |msg.value|
    ensures msg.Some? && buffer.Some? ==>
      r.0.value.size == if |msg.value| + CountOf(buffer) >= buffer.value.size
                        then 2 * (|msg.value| + CountOf(buffer)) else buffer.value.size
  {
    var bytes := CountOf(buffer);
    if msg.None? then (buffer, bytes)
    else
      var sz := |msg.value|;
      if buffer.None? then
        (Some(AppendBuffer(NewBuffer(sz * 2), msg.value)), sz + bytes)
      else if sz + bytes >= buffer.value.size then
        var nbuf := CopyBuffer(NewBuffer((sz + bytes) * 2), buffer.value);
        (Some(AppendBuffer(nbuf, msg.value)), sz + bytes)
      else
        (Some(AppendBuffer(buffer.value, msg.value)), sz + bytes)
  }

  /** What `lpop` returns to Lua: nothing, or a string (or nil) and the remaining count. */
  datatype PopResult = NoResults | Popped(bytes: Option<seq<byte>>, remaining: int)

  /**
   * The copy `lpop` makes of the `n` oldest bytes: in one piece when they end
   * before the end of the storage, in two otherwise.
   */
  function Slice(b: Buffer, n: int): (out: seq<byte>)
    requires BufValid(b) && 0 < n <= Bytes(b)
    ensures out == Contents(b)[..n]
  {
    var out :=
      if b.size - b.head >= n then b.data[b.head..b.head + n]
      else b.data[b.head..] + b.data[..n - (b.size - b.head)];
    assert forall i | 0 <= i < n :: out[i] == Contents(b)[i];
    out
  }

  /** The head of `lpop` moved past the `n` bytes taken. */
  function Advance(b: Buffer, n: int): (r: Buffer)
    requires BufValid(b) && 0 < n <= Bytes(b)
    ensures r == b.(head := r.head) && BufValid(r)
    ensures n < Bytes(b) ==> Contents(r) == Contents(b)[n..]
  {
    var r := b.(head := if b.size - b.head >= n then b.head + n else n - (b.size - b.head));
    if n < Bytes(b) then
      assert Bytes(r) == Bytes(b) - n;
      assert forall i | 0 <= i < Bytes(b) - n :: Pos(r, i) == Pos(b, n + i);
      r
    else r
  }

  /** What `lpop` takes and what it leaves when `n` bytes are asked for and held. */
  function Take(b: Buffer, n: int): (r: (seq<byte>, Buffer))
    requires BufValid(b) && 0 < n <= Bytes(b)
    ensures r.0 == Contents(b)[..n]
    ensures r.1 == b.(head := r.1.head) && BufValid(r.1)
    ensures n < Bytes(b) ==> Contents(r.1) == Contents(b)[n..]
  {
    (Slice(b, n), Advance(b, n))
  }

  /**
   * `lpop`: takes `sz` bytes from the front (all of them when `sz` is 0).
   * Asking for more than is buffered, or popping an empty buffer, returns nil
   * and the count without change. A buffer left empty restarts at 0.
   */
  function LPop(buffer: Option<Buffer>, sz: nat): (r: (PopResult, Option<Buffer>))
    requires buffer.Some? ==> BufValid(buffer.value)
    ensures r.1.Some? ==> BufValid(r.1.value)
    ensures buffer.None? ==> r == (NoResults, None)
    ensures buffer.Some? && (sz > CountOf(buffer) || CountOf(buffer) == 0) ==>
      r == (Popped(None, CountOf(buffer)), buffer)
    ensures buffer.Some? && !(sz > CountOf(buffer) || CountOf(buffer) == 0) ==>
      var n := if sz == 0 then CountOf(buffer) else sz;
      r.0 == Popped(Some(ContentsOf(buffer)[..n]), CountOf(buffer) - n)
      && r.1.Some? && Contents(r.1.value) == ContentsOf(buffer)[n..]
      && r.1.value.size == buffer.value.size
      && (n == CountOf(buffer) ==> r.1.value.head == 0 && r.1.value.tail == 0)
  {
    if buffer.None? then (NoResults, None)
    else
      var b := buffer.value;
      var bytes := Bytes(b);
      if sz > bytes || bytes == 0 then (Popped(None, bytes), buffer)
      else
        var n := if sz == 0 then bytes else sz;
        var (out, taken) := Take(b, n);
        var left := bytes - n;
        (Popped(Some(out), left), Some(if left == 0 then b.(head := 0, tail := 0) else taken))
  }

  /** Bytes pushed and then popped in one piece come back as they went in, after what was already there. */
  lemma PushThenPopAll(buffer: Option<Buffer>, msg: seq<byte>)
    requires buffer.Some? ==> BufValid(buffer.value)
    requires |ContentsOf(buffer)| + |msg| > 0
    ensures var (pushed, _) := LPush(buffer, Some(msg));
      LPop(pushed, 0).0 == Popped(Some(ContentsOf(buffer) + msg), 0)
  {
    var (pushed, _) := LPush(buffer, Some(msg));
    assert Contents(pushed.value) == ContentsOf(buffer) + msg;
    assert Contents(pushed.value)[..Bytes(pushed.value)] == Contents(pushed.value);
  }

  // ---------------------------------------------------------------------------
  // Separator search

  /** The separator occurs in `s` at offset `i`. */
  predicate MatchAt(s: seq<byte>, sep: seq<byte>, i: int)
  {
    0 <= i && i + |sep| <= |s| && s[i..i + |sep|] == sep
  }

  /** An index less than one lap past the end comes back by a single subtraction. */
  lemma OneLap(x: int, size: int)
    requires 0 < size <= x < 2 * size
    ensures x % size == Wrapped(size, x)
  {
    assert x == size * 1 + (x - size);
  }

  /**
   * `check_sep`: compares the separator with the bytes stored from index
   * `from`, wrapping once past the end of the storage.
   */
  method CheckSep(b: Buffer, from: int, sep: seq<byte>) returns (found: bool)
    requires BufValid(b) && 0 <= from && (from < b.size || |sep| == 0) && |sep| <= b.size
    ensures found <==> forall k :: 0 <= k < |sep| ==> b.data[Wrapped(b.size, from + k)] == sep[k]
  {
    var i := 0;
    while i < |sep|
      invariant 0 <= i <= |sep|
      invariant forall k :: 0 <= k < i ==> b.data[Wrapped(b.size, from + k)] == sep[k]
    {
      var index := from + i;
      if index >= b.size {
        OneLap(index, b.size);
        index := index % b.size;
      }
      if b.data[index] != sep[i] {
        return false;
      }
      i := i + 1;
    }
    return true;
  }

  /** Comparing at storage index `Wrapped(size, head + i)` is matching at offset `i` of the contents. */
  lemma CheckedIsMatch(b: Buffer, i: int, index: int, sep: seq<byte>)
    requires BufValid(b) && 0 <= i && i + |sep| <= Bytes(b)
    requires index == Wrapped(b.size, b.head + i)
    ensures (forall k :: 0 <= k < |sep| ==> b.data[Wrapped(b.size, index + k)] == sep[k])
            <==> MatchAt(Contents(b), sep, i)
  {
    if forall k :: 0 <= k < |sep| ==> b.data[Wrapped(b.size, index + k)] == sep[k] {
      CheckedToMatch(b, i, index, sep);
    }
    if MatchAt(Contents(b), sep, i) {
      MatchToChecked(b, i, index, sep);
    }
  }

  /** A byte-by-byte match in storage is a match in the contents. */
  lemma CheckedToMatch(b: Buffer, i: int, index: int, sep: seq<byte>)
    requires BufValid(b) && 0 <= i && i + |sep| <= Bytes(b)
    requires index == Wrapped(b.size, b.head + i)
    requires forall k :: 0 <= k < |sep| ==> b.data[Wrapped(b.size, index + k)] == sep[k]
    ensures MatchAt(Contents(b), sep, i)
  {
    var cs := Contents(b);
    forall k | 0 <= k < |sep| ensures cs[i + k] == sep[k] {
      assert Pos(b, i + k) == Wrapped(b.size, index + k);
    }
    assert cs[i..i + |sep|] == sep;
  }

  /** A match in the contents is a byte-by-byte match in storage. */
  lemma MatchToChecked(b: Buffer, i: int, index: int, sep: seq<byte>)
    requires BufValid(b) && 0 <= i && i + |sep| <= Bytes(b)
    requires index == Wrapped(b.size, b.head + i)
    requires MatchAt(Contents(b), sep, i)
    ensures forall k :: 0 <= k < |sep| ==> b.data[Wrapped(b.size, index + k)] == sep[k]
  {
    var cs := Contents(b);
    forall k | 0 <= k < |sep| ensures b.data[Wrapped(b.size, index + k)] == sep[k] {
      assert cs[i..i + |sep|][k] == cs[i + k];
      assert Pos(b, i + k) == Wrapped(b.size, index + k);
    }
  }

  /**
   * The read branch of `lreadline` once a separator is found at offset
   * `i > 0`: the bytes before it, in one or two pieces, and the storage index
   * just after them (which may be `size`).
   */
  function LineBefore(b: Buffer, i: int): (r: (seq<byte>, int))
    requires BufValid(b) && 0 < i <= Bytes(b)
    ensures r.0 == Contents(b)[..i]
    ensures 0 <= r.1 <= b.size && (r.1 == b.head + i || r.1 == b.head + i - b.size)
  {
    var index := Wrapped(b.size, b.head + i) - 1;
    var index := if index < 0 then b.size - 1 else index;
    assert index == Pos(b, i - 1);
    var line := if index < b.head then b.data[b.head..b.size] + b.data[..index + 1]
                else b.data[b.head..index + 1];
    assert line == Contents(b)[..i] by {
      forall k | 0 <= k < i ensures line[k] == Contents(b)[k] {
        assert Contents(b)[k] == b.data[Pos(b, k)];
      }
    }
    (line, index + 1)
  }

  /**
   * Moving `head` past the separator: from a storage index standing for
   * offset `i`, `len` bytes on, wrapped once, leaves the contents after them.
   */
  lemma Consumed(b: Buffer, i: int, len: nat, from: int)
    requires BufValid(b) && 0 <= i && i + len <= Bytes(b)
    requires 0 <= from <= b.size && (from == b.head + i || from == b.head + i - b.size)
    ensures var b' := b.(head := Wrapped(b.size, from + len));
      BufValid(b') && Contents(b') == Contents(b)[i + len..]
  {
    var b' := b.(head := Wrapped(b.size, from + len));
    assert BufValid(b');
    assert Bytes(b') == Bytes(b) - i - len;
    forall k | 0 <= k < Bytes(b') ensures Contents(b')[k] == Contents(b)[i + len + k] {
      assert Pos(b', k) == Pos(b, i + len + k);
    }
  }

  /** No occurrence of the separator anywhere in `s`. */
  ghost predicate NoMatch(s: seq<byte>, sep: seq<byte>)
  {
    forall i :: 0 <= i ==> !MatchAt(s, sep, i)
  }

  /** `i` is the earliest occurrence of the separator in `s`. */
  ghost predicate FirstMatch(s: seq<byte>, sep: seq<byte>, i: int)
  {
    MatchAt(s, sep, i) && forall j :: 0 <= j < i ==> !MatchAt(s, sep, j)
  }

  /**
   * The scan of `lreadline`: tries each offset from the oldest byte on,
   * stopping at the first where the separator matches.
   */
  method FindSep(b: Buffer, sep: seq<byte>) returns (at: Option<nat>)
    requires BufValid(b)
    ensures at.None? <==> NoMatch(Contents(b), sep)
    ensures at.Some? ==> FirstMatch(Contents(b), sep, at.value)
  {
    ghost var cs := Contents(b);
    var len := |sep|;
    var bytes := Bytes(b);
    var i := 0;
    while i <= bytes - len
      invariant 0 <= i && (len <= bytes ==> i <= bytes - len + 1)
      invariant forall j :: 0 <= j < i ==> !MatchAt(cs, sep, j)
    {
      var index := b.head + i;
      if index >= b.size {
        index := index - b.size;
      }
      var matched := CheckSep(b, index, sep);
      CheckedIsMatch(b, i, index, sep);
      if matched {
        return Some(i);
      }
      i := i + 1;
    }
    return None;
  }

  /**
   * The read branch of `lreadline` for a separator of `len` bytes at offset
   * `i`: the line before it, and the buffer with `head` moved past both.
   */
  function Cut(b: Buffer, i: nat, len: nat): (r: (seq<byte>, Buffer))
    requires BufValid(b) && i + len <= Bytes(b)
    ensures BufValid(r.1) && r.1 == b.(head := r.1.head)
    ensures r.0 == Contents(b)[..i] && Contents(r.1) == Contents(b)[i + len..]
  {
    var index := Wrapped(b.size, b.head + i);
    var (line, index) := if i > 0 then LineBefore(b, i) else ([], index);
    Consumed(b, i, len, index);
    (line, b.(head := Wrapped(b.size, index + len)))
  }

  /** What `lreadline` returns to Lua: nothing, `true` (peek), or the line. */
  datatype ReadlineResult = NotFound | Peeked | Line(line: seq<byte>)

  /**
   * `lreadline`: finds the earliest occurrence of `sep` in the buffered
   * bytes. Peeking only reports it; reading returns the bytes before it and
   * consumes them together with the separator.
   */
  method LReadline(buffer: Option<Buffer>, sep: seq<byte>, peek: bool)
    returns (result: ReadlineResult, buffer': Option<Buffer>)
    requires buffer.Some? ==> BufValid(buffer.value)
    ensures buffer'.Some? ==> BufValid(buffer'.value)
    ensures buffer.None? ==> result == NotFound && buffer' == None
    ensures buffer.Some? ==> (result == NotFound <==> NoMatch(ContentsOf(buffer), sep))
    ensures result == NotFound ==> buffer' == buffer
    ensures result == Peeked <==> peek && result != NotFound
    ensures result == Peeked ==> buffer' == buffer
    ensures result.Line? ==> (
      var i := |result.line|;
      buffer'.Some? && FirstMatch(ContentsOf(buffer), sep, i)
      && result.line == ContentsOf(buffer)[..i]
      && Contents(buffer'.value) == ContentsOf(buffer)[i + |sep|..])
  {
    if buffer.None? {
      return NotFound, None;
    }
    var b := buffer.value;
    var at := FindSep(b, sep);
    if at.None? {
      return NotFound, buffer;
    }
    if peek {
      return Peeked, buffer;
    }
    var (line, b') := Cut(b, at.value, |sep|);
    return Line(line), Some(b');
  }
}

=== FILE: socket_pool.dfy ===
/**
 * The socket table of `hive_socket_lib.c` (`struct socket_pool`): `cap`
 * slots, each a `struct socket`, and the next application-level id to hand
 * out. A socket with id `k` always lives in slot `k % cap`, so lookups by id
 * are one index and one comparison; the table doubles when every slot is in
 * use.
 *
 * The poller (epoll/kqueue), the system calls and the Lua stack are not
 * modelled: their results are parameters. `ForceClose` returns the descriptor
 * it closes; `NewSocket` closes its own `sock` on failure, which shows only
 * as the result -1.
 */
module SocketPool {
  import opened Common
  import opened Blocks

  /** The largest id; the next id after it is 1. */
  const MAX_ID: int := 0x7fff_ffff
  const DEFAULT_SOCKET: int := 128

  datatype Status = Invalid | HalfClose | Suspend

  /**
   * `struct socket`: the descriptor, the application-level id, the status,
   * whether it listens, and the write queue of bytes still to send (each
   * element one `write_buffer` node, from its `ptr` for `sz` bytes).
   */
  datatype Socket = Socket(fd: int, id: int, status: Status, listen: bool, pending: seq<seq<byte>>)

  /** A slot as `memset(0)` leaves it. */
  const Fresh: Socket := Socket(0, 0, Invalid, false, [])

  datatype Pool = Pool(id: int, count: int, cap: int, slots: seq<Socket>)

  predicate IsLive(s: Socket)
  {
    s.status != Invalid
  }

  ghost function LiveSlots(slots: seq<Socket>): set<int>
  {
    set i | 0 <= i < |slots| && IsLive(slots[i])
  }

  /**
   * The invariant the library keeps: `count` is the number of slots in use,
   * every socket in use sits at its id modulo `cap` with an id in
   * `1..MAX_ID`, and a free slot has no queued writes.
   */
  ghost predicate PoolValid(p: Pool)
  {
    p.cap >= DEFAULT_SOCKET && |p.slots| == p.cap && 1 <= p.id <= MAX_ID
    && p.count == |LiveSlots(p.slots)|
    && (forall i :: 0 <= i < |p.slots| && IsLive(p.slots[i]) ==>
          1 <= p.slots[i].id <= MAX_ID && p.slots[i].id % p.cap == i)
    && (forall i :: 0 <= i < |p.slots| && !IsLive(p.slots[i]) ==> p.slots[i].pending == [])
  }

  ghost function Ids(p: Pool): set<int>
  {
    set i | 0 <= i < |p.slots| && IsLive(p.slots[i]) :: p.slots[i].id
  }

  /** The sockets in use, by id: the abstraction every operation is specified against. */
  ghost function Live(p: Pool): map<int, Socket>
    requires PoolValid(p)
  {
    map id | id in Ids(p) :: p.slots[id % p.cap]
  }

  /** The source's lookup is exact: an id is in use iff its slot is in use and holds that id. */
  lemma InLive(p: Pool, id: int)
    requires PoolValid(p)
    ensures id in Live(p) <==> IsLive(p.slots[id % p.cap]) && p.slots[id % p.cap].id == id
    ensures id in Live(p) ==> Live(p)[id] == p.slots[id % p.cap] && 1 <= id <= MAX_ID
  {
    var k := id % p.cap;
    if IsLive(p.slots[k]) && p.slots[k].id == id {
      assert id in Ids(p);
    }
  }

  // ---------------------------------------------------------------------------
  // Arithmetic and counting

  lemma MulAtLeast(c: int, d: int)
    requires c > 0 && d >= 1
    ensures c * d >= c
  {
  }

  /** Euclidean remainders are unique. */
  lemma ModUnique(x: int, c: int, q: int, r: int)
    requires c > 0 && 0 <= r < c && x == c * q + r
    ensures x % c == r
  {
    var q', r' := x / c, x % c;
    assert x == c * q' + r';
    if q > q' {
      var d := q - q';
      assert c * q == c * q' + c * d;
      MulAtLeast(c, d);
    } else if q < q' {
      var d := q' - q;
      assert c * q' == c * q + c * d;
      MulAtLeast(c, d);
    }
  }

  /** A slot index in the doubled table still names the old slot modulo the old size. */
  lemma ModDouble(x: int, c: int)
    requires c > 0
    ensures (x % (2 * c)) % c == x % c
  {
    var q, r := x / (2 * c), x % (2 * c);
    assert x == (2 * c) * q + r;
    var q2, r2 := r / c, r % c;
    assert r == c * q2 + r2;
    assert x == c * (2 * q + q2) + r2;
    ModUnique(x, c, 2 * q + q2, r2);
  }

  /** `c` consecutive integers from `a` hit every residue modulo `c`. */
  lemma Covers(a: int, c: int, k: int)
    requires c > 0 && 0 <= k < c
    ensures 0 <= (k - a) % c < c && (a + (k - a) % c) % c == k
  {
    var m := (k - a) / c;
    assert k - a == c * m + (k - a) % c;
    assert a + (k - a) % c == c * (-m) + k;
    ModUnique(a + (k - a) % c, c, -m, k);
  }

  lemma {:induction false} LiveBound(slots: seq<Socket>)
    ensures |LiveSlots(slots)| <= |slots|
    ensures |LiveSlots(slots)| == |slots| <==> forall i :: 0 <= i < |slots| ==> IsLive(slots[i])
  {
    if |slots| > 0 {
      var t := slots[..|slots| - 1];
      LiveBound(t);
      assert LiveSlots(slots) == LiveSlots(t) + (if IsLive(slots[|slots| - 1]) then {|slots| - 1} else {});
      if forall i :: 0 <= i < |slots| ==> IsLive(slots[i]) {
        assert forall i :: 0 <= i < |t| ==> IsLive(t[i]) by {
          forall i | 0 <= i < |t| ensures IsLive(t[i]) {
            assert t[i] == slots[i];
          }
        }
      }
    } else {
      assert LiveSlots(slots) == {};
    }
  }

  lemma {:induction false} DistinctCard(xs: seq<int>)
    requires forall j, k :: 0 <= j < k < |xs| ==> xs[j] != xs[k]
    ensures |set j | 0 <= j < |xs| :: xs[j]| == |xs|
  {
    if |xs| > 0 {
      var ys := xs[..|xs| - 1];
      DistinctCard(ys);
      assert (set j | 0 <= j < |xs| :: xs[j]) == (set j | 0 <= j < |ys| :: ys[j]) + {xs[|xs| - 1]};
    }
  }

  /** Slot `n` replaced by `s`, with the count adjusted for the slots in use. */
  function Replace(p: Pool, n: int, s: Socket): (q: Pool)
    requires 0 <= n < |p.slots|
    ensures q.cap == p.cap && q.id == p.id && |q.slots| == |p.slots|
  {
    p.(slots := p.slots[n := s],
       count := p.count - (if IsLive(p.slots[n]) then 1 else 0) + (if IsLive(s) then 1 else 0))
  }

  /** A slot that may legally hold `s` in a table of `cap` slots. */
  ghost predicate Fits(s: Socket, n: int, cap: int)
  {
    cap > 0 && (IsLive(s) ==> 1 <= s.id <= MAX_ID && s.id % cap == n) && (!IsLive(s) ==> s.pending == [])
  }

  /** Replacing slot `n` leaves the other slots' use as it was. */
  lemma LiveSlotsUpdate(slots: seq<Socket>, n: int, s: Socket)
    requires 0 <= n < |slots|
    ensures LiveSlots(slots[n := s]) - {n} == LiveSlots(slots) - {n}
    ensures n in LiveSlots(slots[n := s]) <==> IsLive(s)
  {
    forall i | i != n && 0 <= i < |slots| ensures slots[n := s][i] == slots[i] {
    }
  }

  lemma CardAround(a: set<int>, n: int)
    ensures |a| == |a - {n}| + (if n in a then 1 else 0)
  {
    if n in a {
      assert a == (a - {n}) + {n};
    } else {
      assert a == a - {n};
    }
  }

  lemma UpdateCount(slots: seq<Socket>, n: int, s: Socket)
    requires 0 <= n < |slots|
    ensures |LiveSlots(slots[n := s])|
         == |LiveSlots(slots)| - (if IsLive(slots[n]) then 1 else 0) + (if IsLive(s) then 1 else 0)
  {
    LiveSlotsUpdate(slots, n, s);
    CardAround(LiveSlots(slots[n := s]), n);
    CardAround(LiveSlots(slots), n);
  }

  lemma ReplaceValid(p: Pool, n: int, s: Socket)
    requires PoolValid(p) && 0 <= n < p.cap && Fits(s, n, p.cap)
    ensures PoolValid(Replace(p, n, s))
  {
    var q := Replace(p, n, s);
    UpdateCount(p.slots, n, s);
    forall i | 0 <= i < |q.slots| && IsLive(q.slots[i])
      ensures 1 <= q.slots[i].id <= MAX_ID && q.slots[i].id % q.cap == i
    {
      if i != n {
        assert q.slots[i] == p.slots[i];
      }
    }
    forall i | 0 <= i < |q.slots| && !IsLive(q.slots[i]) ensures q.slots[i].pending == [] {
      if i != n {
        assert q.slots[i] == p.slots[i];
      }
    }
  }

  /** `ReplaceLive` for a single id. */
  lemma ReplaceAt(p: Pool, n: int, s: Socket, id: int)
    requires PoolValid(p) && 0 <= n < p.cap && Fits(s, n, p.cap) && PoolValid(Replace(p, n, s))
    ensures var base := if IsLive(p.slots[n]) then Live(p) - {p.slots[n].id} else Live(p);
      var want := if IsLive(s) then base[s.id := s] else base;
      && (id in Live(Replace(p, n, s)) <==> id in want)
      && (id in want ==> Live(Replace(p, n, s))[id] == want[id])
  {
    var q := Replace(p, n, s);
    InLive(p, id);
    InLive(q, id);
    if id % p.cap != n {
      assert q.slots[id % p.cap] == p.slots[id % p.cap];
    }
  }

  /**
   * Replacing one slot: the sockets in use lose the one it held and gain the
   * one put there.
   */
  lemma ReplaceLive(p: Pool, n: int, s: Socket)
    requires PoolValid(p) && 0 <= n < p.cap && Fits(s, n, p.cap)
    ensures PoolValid(Replace(p, n, s))
    ensures var base := if IsLive(p.slots[n]) then Live(p) - {p.slots[n].id} else Live(p);
      Live(Replace(p, n, s)) == if IsLive(s) then base[s.id := s] else base
  {
    ReplaceValid(p, n, s);
    var q := Replace(p, n, s);
    var base := if IsLive(p.slots[n]) then Live(p) - {p.slots[n].id} else Live(p);
    var want := if IsLive(s) then base[s.id := s] else base;
    forall id ensures (id in Live(q) <==> id in want) && (id in want ==> Live(q)[id] == want[id]) {
      ReplaceAt(p, n, s, id);
    }
  }

  // ---------------------------------------------------------------------------
  // Operations

  /** `linit`: `DEFAULT_SOCKET` zeroed slots, none in use, ids starting at 1. */
  function PoolInit(): (p: Pool)
    ensures PoolValid(p) && Live(p) == map[] && p.cap == DEFAULT_SOCKET && p.count == 0
    ensures p.id == 1
  {
    var p := Pool(1, 0, DEFAULT_SOCKET, seq(DEFAULT_SOCKET, _ => Fresh));
    assert LiveSlots(p.slots) == {};
    assert Ids(p) == {};
    p
  }

  /**
   * The first loop of `expand_pool`: each socket is placed at its id modulo
   * the doubled size, into a slot still empty, so no two sockets collide.
   */
  method Place(p: Pool) returns (s: seq<Option<Socket>>)
    requires PoolValid(p) && forall i :: 0 <= i < p.cap ==> IsLive(p.slots[i])
    ensures |s| == 2 * p.cap
    ensures forall j :: 0 <= j < p.cap ==> s[p.slots[j].id % (2 * p.cap)] == Some(p.slots[j])
    ensures forall k :: 0 <= k < 2 * p.cap && s[k].Some? ==>
      s[k].value.id % (2 * p.cap) == k && s[k].value == p.slots[s[k].value.id % p.cap]
  {
    var cap2 := p.cap * 2;
    s := seq(cap2, _ => None);
    var i := 0;
    while i < p.cap
      invariant 0 <= i <= p.cap && |s| == cap2
      invariant forall j :: 0 <= j < i ==> s[p.slots[j].id % cap2] == Some(p.slots[j])
      invariant forall k :: 0 <= k < cap2 && s[k].Some? ==>
        s[k].value.id % cap2 == k && s[k].value.id % p.cap < i && s[k].value == p.slots[s[k].value.id % p.cap]
    {
      var nid := p.slots[i].id % cap2;
      ModDouble(p.slots[i].id, p.cap);
      assert s[nid] == None by {
        if s[nid].Some? {
          ModDouble(s[nid].value.id, p.cap);
        }
      }
      s := s[nid := Some(p.slots[i])];
      i := i + 1;
    }
  }

  /** The table `expand_pool` builds from the placement: placed sockets, the rest fresh. */
  function Fill(s: seq<Option<Socket>>): (slots: seq<Socket>)
    ensures |slots| == |s|
    ensures forall k :: 0 <= k < |s| ==> slots[k] == if s[k].Some? then s[k].value else Fresh
    ensures forall k :: 0 <= k < |s| ==> (IsLive(slots[k]) <==> s[k].Some? && IsLive(s[k].value))
  {
    seq(|s|, k requires 0 <= k < |s| => if s[k].Some? then s[k].value else Fresh)
  }

  /** The doubled table has exactly as many slots in use as the old one had slots. */
  lemma FillCount(p: Pool, s: seq<Option<Socket>>)
    requires PoolValid(p) && forall i :: 0 <= i < p.cap ==> IsLive(p.slots[i])
    requires |s| == 2 * p.cap
    requires forall j :: 0 <= j < p.cap ==> s[p.slots[j].id % (2 * p.cap)] == Some(p.slots[j])
    requires forall k :: 0 <= k < 2 * p.cap && s[k].Some? ==>
      s[k].value.id % (2 * p.cap) == k && s[k].value == p.slots[s[k].value.id % p.cap]
    ensures |LiveSlots(Fill(s))| == p.cap
  {
    var cap2 := 2 * p.cap;
    var slots := Fill(s);
    var targets := seq(p.cap, j requires 0 <= j < p.cap => p.slots[j].id % cap2);
    forall k | k in LiveSlots(slots) ensures k in set j | 0 <= j < |targets| :: targets[j] {
      assert targets[s[k].value.id % p.cap] == k;
    }
    assert LiveSlots(slots) == set j | 0 <= j < |targets| :: targets[j];
    forall j, k | 0 <= j < k < |targets| ensures targets[j] != targets[k] {
      ModDouble(p.slots[j].id, p.cap);
      ModDouble(p.slots[k].id, p.cap);
    }
    DistinctCard(targets);
  }

  /**
   * `expand_pool`, which `new_socket` calls once every slot is in use: each
   * socket moves to its id modulo the doubled size (no two collide) and the
   * other slots are fresh. The sockets in use, by id, stay the same.
   */
  method ExpandPool(p: Pool) returns (r: Pool)
    requires PoolValid(p) && p.count >= p.cap
    ensures PoolValid(r) && r.cap == 2 * p.cap && r.id == p.id && r.count == p.count == p.cap
    ensures Live(r) == Live(p)
    ensures forall k :: 0 <= k < r.cap && !IsLive(r.slots[k]) ==> r.slots[k] == Fresh
  {
    LiveBound(p.slots);
    var s := Place(p);
    assert forall k :: 0 <= k < |s| && s[k].Some? ==> IsLive(s[k].value);
    r := Pool(p.id, p.count, p.cap * 2, Fill(s));
    FillCount(p, s);
    assert PoolValid(r);
    forall id ensures id in Live(r) <==> id in Live(p) {
      InLive(p, id);
      InLive(r, id);
      ModDouble(id, p.cap);
    }
    forall id | id in Live(r) ensures Live(r)[id] == Live(p)[id] {
      InLive(p, id);
      InLive(r, id);
      ModDouble(id, p.cap);
    }
    SameMap(Live(r), Live(p));
  }

  /** Two maps with the same keys and the same value at each key are equal. */
  lemma SameMap<K, V>(a: map<K, V>, b: map<K, V>)
    requires forall k :: k in a <==> k in b
    requires forall k :: k in a ==> a[k] == b[k]
    ensures a == b
  {
  }

  /**
   * The id `new_socket` tries at step `i` of its scan, `p->id + i`, taken
   * past `MAX_ID` back to 1 so that it stays a valid id.
   */
  function Candidate(pid: int, i: int): (id: int)
    requires 1 <= pid <= MAX_ID && 0 <= i
    ensures 1 <= id <= MAX_ID
    ensures pid + i <= MAX_ID ==> id == pid + i
  {
    (pid - 1 + i) % MAX_ID + 1
  }

  /** The id after `id`, back to 1 after `MAX_ID`. */
  function NextId(id: int): (next: int)
    requires 1 <= id <= MAX_ID
    ensures 1 <= next <= MAX_ID
    ensures next == if id == MAX_ID then 1 else id + 1
  {
    if id + 1 > MAX_ID then 1 else id + 1
  }

  /** C's `%` on `int`, which truncates toward zero. */
  function CRem(a: int, b: int): (r: int)
    requires b > 0
    ensures -b < r < b
    ensures a >= 0 ==> r == a % b
    ensures a < 0 ==> r <= 0
  {
    if a >= 0 then a % b else -((-a) % b)
  }

  /** `p->id + i` as the source computes it, in 32-bit `int`. */
  function CandidateAsWritten(pid: int32, i: int): (id: int32)
    requires 0 <= i
    ensures pid + i <= MAX_ID ==> id == pid + i
    ensures MAX_ID < pid + i < TWO_32 ==> id == pid + i - TWO_32 && id < 0
  {
    Wrap32(pid + i)
  }

  /** `p->id = id + 1; if (p->id > MAX_ID) p->id = 1;` as the source computes it, in 32-bit `int`. */
  function NextIdAsWritten(id: int32): (next: int)
    ensures next == if id == MAX_ID then -TWO_31 else id + 1
    ensures next != 1 || id == 0
  {
    var n := Wrap32(id + 1);
    if n > MAX_ID then 1 else n
  }

  /**
   * The wrap test in `new_socket` never fires: `id + 1` overflows before it
   * can exceed `MAX_ID`. After the socket with id `MAX_ID` the next id is
   * -2^31 instead of 1, and one scan step later the slot index `id % cap`
   * is negative (-127 for the default table), outside the slot array.
   */
  lemma IdOverflowAsWritten()
    ensures NextIdAsWritten(MAX_ID) == -TWO_31 && NextId(MAX_ID) == 1
    ensures CRem(CandidateAsWritten(NextIdAsWritten(MAX_ID), 1), DEFAULT_SOCKET) == -127
    ensures 0 <= Candidate(NextId(MAX_ID), 1) % DEFAULT_SOCKET < DEFAULT_SOCKET
  {
    assert Wrap32(MAX_ID + 1) == -TWO_31;
    assert Wrap32(-TWO_31 + 1) == -TWO_31 + 1;
  }

  /**
   * The slot update of `new_socket` once the free slot of `cid` is found: the
   * socket is stored suspended under `cid`, and the next scan starts after it.
   */
  function Claim(q: Pool, cid: int, sock: int): (r: Pool)
    requires PoolValid(q) && 1 <= cid <= MAX_ID && !IsLive(q.slots[cid % q.cap])
    ensures PoolValid(r) && r.cap == q.cap && cid !in Live(q)
    ensures Live(r) == Live(q)[cid := Socket(sock, cid, Suspend, false, [])]
    ensures r.count == q.count + 1 && r.id == NextId(cid)
    ensures r.slots[cid % q.cap] == Socket(sock, cid, Suspend, false, [])
    ensures forall k :: 0 <= k < r.cap && k != cid % q.cap ==> r.slots[k] == q.slots[k]
  {
    var n := cid % q.cap;
    var s' := q.slots[n].(status := Suspend, listen := false, fd := sock, id := cid);
    InLive(q, cid);
    ReplaceLive(q, n, s');
    var r := Replace(q, n, s');
    assert Ids(r.(id := NextId(cid))) == Ids(r);
    r.(id := NextId(cid))
  }

  /**
   * A scan that does not run past `MAX_ID` visits every slot once, so when it
   * finds every slot in use, the table is full.
   */
  lemma ScanFull(q: Pool)
    requires PoolValid(q) && q.id + q.cap <= MAX_ID + 1
    requires forall j :: 0 <= j < q.cap ==> IsLive(q.slots[Candidate(q.id, j) % q.cap])
    ensures q.count == q.cap
  {
    forall k | 0 <= k < q.cap ensures IsLive(q.slots[k]) {
      Covers(q.id, q.cap, k);
      var j := (k - q.id) % q.cap;
      assert Candidate(q.id, j) == q.id + j;
    }
    LiveBound(q.slots);
  }

  /**
   * `id` is candidate `i` of a scan from `pid` over `slots`, and every earlier
   * candidate's slot is in use by another socket.
   */
  ghost predicate FirstFree(pid: int, slots: seq<Socket>, id: int, i: int)
  {
    1 <= pid <= MAX_ID && 0 <= i < |slots| && id == Candidate(pid, i)
    && forall j :: 0 <= j < i ==>
         IsLive(slots[Candidate(pid, j) % |slots|]) && Candidate(pid, j) % |slots| != id % |slots|
  }

  /**
   * The first step of `new_socket`: a table with every slot in use is doubled
   * by `expand_pool`; any other table is kept as it is.
   */
  method MakeRoom(p: Pool) returns (q: Pool)
    requires PoolValid(p)
    ensures PoolValid(q) && q.cap == (if p.count >= p.cap then 2 * p.cap else p.cap)
    ensures q.id == p.id && q.count == p.count && Live(q) == Live(p) && q.count < q.cap
    ensures forall k :: 0 <= k < q.cap && !IsLive(q.slots[k]) ==>
      q.slots[k] == if p.count >= p.cap then Fresh else p.slots[k]
  {
    q := p;
    if p.count >= p.cap {
      q := ExpandPool(p);
    }
  }

  /**
   * The scan of `new_socket`: the ids from `q.id` on are tried, each at its
   * slot, and the first free slot is taken unless the poller registration
   * fails (`addFails`). A failed scan leaves the table as it was. The table
   * has room, as `MakeRoom` leaves it.
   */
  method ScanFree(q: Pool, sock: int, addFails: bool) returns (id: int, r: Pool)
    requires PoolValid(q) && q.count < q.cap
    ensures PoolValid(r) && r.cap == q.cap
    ensures id == -1 ==> r == q
    ensures id != -1 ==>
      1 <= id <= MAX_ID && id !in Live(q)
      && Live(r) == Live(q)[id := Socket(sock, id, Suspend, false, [])]
      && r.count == q.count + 1 && r.id == NextId(id)
    ensures addFails ==> id == -1
    ensures id != -1 ==> exists i :: FirstFree(q.id, r.slots, id, i)
    ensures id == -1 && !addFails ==> forall j :: 0 <= j < q.cap ==> IsLive(q.slots[Candidate(q.id, j) % q.cap])
    ensures forall k :: 0 <= k < r.cap && !IsLive(r.slots[k]) ==> r.slots[k] == q.slots[k]
    ensures !addFails && q.id + q.cap <= MAX_ID + 1 ==> id != -1
  {
    var i := 0;
    while i < q.cap
      invariant 0 <= i <= q.cap
      invariant forall j :: 0 <= j < i ==> IsLive(q.slots[Candidate(q.id, j) % q.cap])
    {
      var cid := Candidate(q.id, i);
      if q.slots[cid % q.cap].status == Invalid {
        if addFails {
          return -1, q;
        }
        r := Claim(q, cid, sock);
        assert forall j :: 0 <= j < i ==> Candidate(q.id, j) % q.cap != cid % q.cap;
        assert FirstFree(q.id, r.slots, cid, i);
        return cid, r;
      }
      i := i + 1;
    }
    if !addFails && q.id + q.cap <= MAX_ID + 1 {
      ScanFull(q);
      assert false;
    }
    return -1, q;
  }

  /**
   * `new_socket`: grows the table when every slot is in use, then tries the
   * ids from `p->id` on, each at its slot, and takes the first free slot.
   * The socket is registered with the poller, which fails when `addFails`;
   * then, or when the scan finds nothing, the descriptor is closed and the
   * result is -1. On success the socket is in use under the returned id and
   * the next scan starts after it.
   */
  method NewSocket(p: Pool, sock: int, addFails: bool) returns (id: int, r: Pool)
    requires PoolValid(p)
    ensures PoolValid(r) && r.cap == (if p.count >= p.cap then 2 * p.cap else p.cap)
    ensures id == -1 ==> Live(r) == Live(p) && r.count == p.count && r.id == p.id
    ensures id != -1 ==>
      1 <= id <= MAX_ID && id !in Live(p)
      && Live(r) == Live(p)[id := Socket(sock, id, Suspend, false, [])]
      && r.count == p.count + 1 && r.id == NextId(id)
    ensures addFails ==> id == -1
    // the id taken is the first candidate from the id counter whose slot is free
    ensures id != -1 ==> exists i :: FirstFree(p.id, r.slots, id, i)
    // a scan that fails visited only slots in use
    ensures id == -1 && !addFails ==> forall j :: 0 <= j < r.cap ==> IsLive(r.slots[Candidate(p.id, j) % r.cap])
    // a slot left free is untouched, or fresh when the table grew
    ensures forall k :: 0 <= k < r.cap && !IsLive(r.slots[k]) ==>
      r.slots[k] == if p.count >= p.cap then Fresh else p.slots[k]
    // the scan finds a free slot whenever its ids do not run past MAX_ID
    ensures !addFails && p.id + r.cap <= MAX_ID + 1 ==> id != -1
  {
    var q := MakeRoom(p);
    id, r := ScanFree(q, sock, addFails);
  }

  /**
   * When the table has room and the slot of the id counter is free, the new
   * socket gets the counter itself.
   */
  method NewSocketTakesCounter(p: Pool, sock: int) returns (id: int, r: Pool)
    requires PoolValid(p) && p.count < p.cap && !IsLive(p.slots[p.id % p.cap])
    ensures PoolValid(r) && id == p.id && Live(r) == Live(p)[id := Socket(sock, id, Suspend, false, [])]
  {
    id, r := NewSocket(p, sock, false);
    var n := p.id % p.cap;
    assert Candidate(p.id, 0) == p.id;
    if id == -1 {
      InLive(r, r.slots[n].id);
      InLive(p, r.slots[n].id);
      assert false;
    }
    ghost var i :| FirstFree(p.id, r.slots, id, i);
    if i > 0 {
      InLive(r, r.slots[n].id);
      InLive(p, r.slots[n].id);
      assert false;
    }
  }

  /**
   * `force_close`, for a slot in use: the write queue is discarded, the slot
   * becomes free and the count drops. The descriptor, when not negative, is
   * removed from the poller and closed; it is returned.
   */
  function ForceClose(p: Pool, n: int): (r: (Pool, Option<int>))
    requires PoolValid(p) && 0 <= n < p.cap && IsLive(p.slots[n])
    ensures PoolValid(r.0) && r.0.cap == p.cap && r.0.id == p.id && r.0.count == p.count - 1
    ensures Live(r.0) == Live(p) - {p.slots[n].id}
    ensures r.1 == if p.slots[n].fd >= 0 then Some(p.slots[n].fd) else None
  {
    var s := p.slots[n];
    var s' := s.(pending := [], status := Invalid, fd := if s.fd >= 0 then -1 else s.fd);
    ReplaceLive(p, n, s');
    (Replace(p, n, s'), if s.fd >= 0 then Some(s.fd) else None)
  }

  /** The socket in use under `id` replaced by `s`, still in use under the same id. */
  function Update(p: Pool, id: int, s: Socket): (r: Pool)
    requires PoolValid(p) && IsLive(p.slots[id % p.cap]) && p.slots[id % p.cap].id == id
    requires IsLive(s) && s.id == id
    ensures PoolValid(r) && r.cap == p.cap && r.id == p.id && r.count == p.count
    ensures Live(r) == Live(p)[id := s]
  {
    InLive(p, id);
    var n := id % p.cap;
    ReplaceLive(p, n, s);
    assert (Live(p) - {id})[id := s] == Live(p)[id := s];
    Replace(p, n, s)
  }

  /** The errors `lclose` and `lsend` raise in Lua. */
  datatype SocketError = InvalidSocket(id: int)

  /**
   * `lclose`: an id whose slot holds another id is an error; a socket already
   * free is left alone; one with nothing queued is closed at once; otherwise
   * it is marked half-closed, to be closed once its queue drains.
   */
  function LClose(p: Pool, id: int): (r: Result<Pool, SocketError>)
    requires PoolValid(p) && id >= 0
    ensures r.Failure? <==> p.slots[id % p.cap].id != id
    ensures r.Failure? ==> r.error == InvalidSocket(id)
    ensures r.Success? ==> PoolValid(r.value) && r.value.cap == p.cap && r.value.id == p.id
    ensures id in Live(p) ==> r.Success?
    ensures r.Success? && id !in Live(p) ==> r.value == p
    ensures id in Live(p) && Live(p)[id].pending == [] ==>
      Live(r.value) == Live(p) - {id} && r.value.count == p.count - 1
    ensures id in Live(p) && Live(p)[id].pending != [] ==>
      Live(r.value) == Live(p)[id := Live(p)[id].(status := HalfClose)] && r.value.count == p.count
  {
    InLive(p, id);
    var n := id % p.cap;
    var s := p.slots[n];
    if id != s.id then Failure(InvalidSocket(id))
    else if s.status == Invalid then Success(p)
    else if s.pending == [] then Success(ForceClose(p, n).0)
    else Success(Update(p, id, s.(status := HalfClose)))
  }

  /**
   * The write queue after `lsend` hands it `msg`: appended when writes are
   * already queued; otherwise `sent` is what `send` took (negative for an
   * error) and only the rest is queued, or nothing when it took it all.
   */
  function Enqueue(pending: seq<seq<byte>>, msg: seq<byte>, sent: int): (r: seq<seq<byte>>)
    requires sent <= |msg|
    ensures var taken := if pending != [] || sent < 0 then 0 else sent;
      Flatten(r) == Flatten(pending) + msg[taken..]
    ensures pending != [] ==> r == pending + [msg]
    ensures r == [] <==> pending == [] && sent == |msg|
  {
    if pending != [] then
      FlattenSnoc(pending, msg);
      pending + [msg]
    else if sent == |msg| then []
    else
      var rest := if sent < 0 then msg else msg[sent..];
      assert Flatten([rest]) == rest by {
        assert [rest][1..] == [];
      }
      [rest]
  }

  /**
   * `lsend`: an id whose slot holds another id is an error; a socket not in
   * the SUSPEND state drops the message. Otherwise the message goes through
   * `Enqueue`.
   */
  function LSend(p: Pool, id: int, msg: seq<byte>, sent: int): (r: Result<Pool, SocketError>)
    requires PoolValid(p) && id >= 0 && sent <= |msg|
    ensures r.Failure? <==> p.slots[id % p.cap].id != id
    ensures r.Failure? ==> r.error == InvalidSocket(id)
    ensures r.Success? ==> PoolValid(r.value) && r.value.cap == p.cap && r.value.id == p.id
    ensures r.Success? ==> r.value.count == p.count
    ensures r.Success? && !(id in Live(p) && Live(p)[id].status == Suspend) ==> r.value == p
    ensures id in Live(p) && Live(p)[id].status == Suspend ==>
      var s := Live(p)[id];
      r.Success? && Live(r.value) == Live(p)[id := s.(pending := Enqueue(s.pending, msg, sent))]
  {
    InLive(p, id);
    var n := id % p.cap;
    var s := p.slots[n];
    if id != s.id then Failure(InvalidSocket(id))
    else if s.status != Suspend then Success(p)
    else Success(Update(p, id, s.(pending := Enqueue(s.pending, msg, sent))))
  }

  /**
   * Closing a socket that `new_socket` has just opened, before anything is
   * queued on it, gives back the sockets in use from before the open.
   */
  lemma CloseUndoesOpen(p: Pool, id: int, sock: int)
    requires PoolValid(p) && 1 <= id <= MAX_ID && !IsLive(p.slots[id % p.cap])
    ensures LClose(Claim(p, id, sock), id).Success?
    ensures Live(LClose(Claim(p, id, sock), id).value) == Live(p)
  {
    var q := Claim(p, id, sock);
    assert Live(q)[id].pending == [];
    assert Live(q) - {id} == Live(p);
  }

  /** Once a socket with nothing queued is closed, writes to its id are dropped without an error. */
  lemma SendAfterClose(p: Pool, id: int, msg: seq<byte>, sent: int)
    requires PoolValid(p) && id >= 0 && sent <= |msg|
    requires IsLive(p.slots[id % p.cap]) && p.slots[id % p.cap].id == id && p.slots[id % p.cap].pending == []
    ensures LClose(p, id).Success?
    ensures LSend(LClose(p, id).value, id, msg, sent) == LClose(p, id)
  {
    InLive(p, id);
    var c := LClose(p, id).value;
    InLive(c, id);
    assert c.slots[id % c.cap].id == id;
  }
}
